=== FILE: README.md ===
# PDF_OCR_batch backend — a Dafny model

This project models the Python backend of PDF_OCR_batch, which extracts text
from engineering drawings. It covers two parts.

The notes extractor (`backend/notes_extractor.py`) works on the rendered first
page of a drawing:

- it decides the page orientation;
- it picks that orientation's template for the "Notes:" region and crops the region;
- it scales crops over 1200 pixels down;
- it runs text detection on the crop and filters the boxes by confidence and,
  on portrait pages, by a column bound at 0.80 of the crop width;
- it sorts the kept polygons top to bottom, runs text recognition, and joins
  the stripped, non-blank lines with newlines;
- it reports one of three record shapes: render failure, OCR failure or success.

The upload endpoint (`backend/main.py`, `/api/upload`) works on one uploaded file:

- it accepts only names ending in ".pdf", in any case;
- it refuses files over 50 MiB;
- it converts the PDF;
- every failure that is not already an HTTP error becomes a 500 whose detail
  starts with "Processing failed: ".

Rendering, image encoding, the detection and recognition models, Marker's
converter, file I/O and the clock are opaque. Their outcomes are parameters:
a `Result` holding either a value or the message of the exception raised.

Python's exceptions are modelled as `Failure` values carrying the exception's
message. Two of them escape `extract_notes_from_pdf` or are caught by it:

- A crop with one zero side and one side over 1200 pixels makes `_limit_size`
  divide by zero. That call is outside any `try`, so the `ZeroDivisionError`
  escapes `extract_notes_from_pdf` (`NotesExtractor.ThinTallPageRaises`
  exhibits such a page; `NotesExtractor.ExtractReturnsOnReasonablePages` shows
  that pages at least 4 pixels each way never raise).
- A confident box with no vertex raises inside the OCR step in two places. Under
  a column bound, its centre is a division by zero. Otherwise, the sort key's
  `min()` of an empty sequence raises. Both become "OCR failed: …" records.

Modules:

| file | module | contents |
|---|---|---|
| `wrappers.dfy` | `Wrappers` | `Option`, `Result`, the division-by-zero message |
| `text.dfy` | `Text` | `str.strip`, `"\n".join` with `str.split("\n")` as its inverse, ASCII `lower`, `endswith`, `str(int)` |
| `geometry.dfy` | `Geometry` | orientation, templates, crop box, `_limit_size` |
| `detection.dfy` | `Detection` | `_ocr_image_surya`: filter, keyed stable sort, line collection |
| `extractor.dfy` | `NotesExtractor` | `extract_notes_from_pdf` and its record shapes |
| `upload.dfy` | `Upload` | `upload_and_process_pdf`, exception mapping, global handler |

## Model

| member | source | states |
|---|---|---|
| Geometry.DetectOrientation | backend/notes_extractor.py:100-103 | A page is landscape exactly when it is strictly wider than tall. |
| Geometry.TemplateSelection | backend/notes_extractor.py:317-321 | Pages strictly wider than tall use the landscape template. All other pages, square ones included, use the portrait template, and a square page is reported as "portrait". |
| Geometry.OrientationFlipsWhenTurned | backend/notes_extractor.py:100-103 | Swapping width and height of a non-square page flips its detected orientation. |
| Geometry.TemplateFor | backend/notes_extractor.py:61-73 | Both templates are non-empty sub-intervals of [0, 1] on each axis: 0.62-0.92 by 0.09-0.53 for landscape, 0.12-0.55 by 0.05-0.44 for portrait. |
| Geometry.CropNotesRegion | backend/notes_extractor.py:117-122 | Each box edge is the largest integer not above page side times edge fraction, stated as two-sided bounds. For a valid template the box lies inside the page with its corners ordered. |
| Geometry.LimitSize | backend/notes_extractor.py:125-137 | A crop with both sides within the limit is returned unchanged. It fails with "division by zero" exactly when a side exceeds the limit and the other side is 0. Otherwise both sides are scaled by limit / longest side, truncated and floored at 1. Each scaled side lies within one step of the exact scaled value, the longest side becomes exactly the limit, no side exceeds the limit, and the order of the two sides is kept. |
| Geometry.ScaledSide | backend/notes_extractor.py:133-135 | A scaled side is `side * limit / longest` truncated, or 1 when that truncates to 0. It lies between 1 and the limit, and the longest side becomes exactly the limit. |
| Geometry.LimitSizeIdempotent | backend/notes_extractor.py:125-137 | Limiting a crop that was already limited changes nothing. |
| Geometry.ScaledSideMonotone | backend/notes_extractor.py:133-135 | Scaling by the common factor never makes the shorter side come out longer. |
| Detection.Trunc | backend/notes_extractor.py:201 | Python's `int()` on a float truncates toward zero: the result is within 1 of the input, and on the side of it nearer zero. |
| Detection.TruncMonotone | backend/notes_extractor.py:201 | Truncation keeps order: a smaller coordinate never truncates to a larger integer. |
| Detection.ToPixels | backend/notes_extractor.py:201 | Each vertex keeps its position in the polygon and becomes the pair of its truncated x and its truncated y, in that order. |
| Detection.Pixels | backend/notes_extractor.py:201 | Every box's polygon is truncated vertex by vertex, and the polygons keep the boxes' order. |
| Detection.TopYOfPixels | backend/notes_extractor.py:201-207 | The sort key of a truncated polygon is the truncated smallest y of the detected polygon. |
| Detection.CentreX | backend/notes_extractor.py:196-197 | The centre times the number of vertices is the sum of their x coordinates. |
| Detection.CentreXBetween | backend/notes_extractor.py:196-197 | The centre lies between any lower and upper bound of the vertices' x coordinates. |
| Detection.FilterBoxes | backend/notes_extractor.py:190-201 | The filter fails with "division by zero" exactly when a column bound is set and some confident box has no vertex. Otherwise it returns the truncated polygons of exactly the boxes of the reference selection, in detection order, together with the number of confident boxes the column bound dropped. |
| Detection.FilterFrom | backend/notes_extractor.py:192-200 | Each iteration of the loop preserves the invariant that the accumulated polygons and drop count match the reference definitions on the boxes seen so far. |
| Detection.SelectedSound | backend/notes_extractor.py:193-200 | Every selected box was detected and has confidence at least 0.5. Under a column bound it also has a vertex, and its mean x is at most bound times crop width. |
| Detection.SelectedComplete | backend/notes_extractor.py:193-201 | Every detected box that passes the confidence test and the column test is selected. |
| Detection.FilterAccounting | backend/notes_extractor.py:191-200 | Selected boxes plus spatially dropped boxes equal the confident boxes. Without a column bound nothing is dropped spatially. |
| Detection.KeyByTop | backend/notes_extractor.py:207 | Computing the sort keys fails with "min() arg is an empty sequence" exactly when some polygon has no vertex, even if there is only one polygon. Otherwise every polygon is keyed by its top y, in the given order. |
| Detection.TopY | backend/notes_extractor.py:207 | The sort key of a polygon is the y of one of its vertices, and no vertex lies above it. |
| Detection.SortByTop | backend/notes_extractor.py:207 | The sorted polygons are a permutation of the keyed input, ordered by non-decreasing top y. |
| Detection.InsertSorted | backend/notes_extractor.py:207 | One insertion step keeps a list sorted by top y. |
| Detection.SortStable | backend/notes_extractor.py:207 | The sort is stable: for every y, the entries whose top is y appear in the same relative order as in the input. |
| Detection.KeptLines | backend/notes_extractor.py:237-242 | At most one line is collected per recognised line. |
| Detection.KeptLinesAppend | backend/notes_extractor.py:237-242 | Collection works line by line in order: the lines collected from two consecutive blocks are those of the first block followed by those of the second. |
| Detection.KeptLinesSingle | backend/notes_extractor.py:239-242 | A single recognised line contributes its stripped text exactly when it is not all white space, and nothing otherwise. |
| Detection.KeptLinesClean | backend/notes_extractor.py:237-242 | Every collected line is non-empty and has no white space at either end. |
| Detection.KeptLinesCount | backend/notes_extractor.py:237-242 | Exactly one line is collected for each recognised line that is not all white space. |
| Detection.SortByTopOrdersPolygons | backend/notes_extractor.py:207 | Sorting keyed polygons yields a stable sort of the polygons themselves: a permutation, non-decreasing in top y, and for every y the polygons with that top keep their relative order. |
| Detection.PolygonsPermutation | backend/notes_extractor.py:207 | Two keyed lists that are permutations of each other carry permutations of the same polygons. |
| Detection.RecognitionInput | backend/notes_extractor.py:190-207 | The polygons handed to recognition fail with "division by zero" exactly when a column bound meets a confident box with no vertex, and with the `min()` message exactly when otherwise a selected polygon is empty. Otherwise they are a stable sort by top y of the truncated polygons of the reference selection. |
| Detection.CollectText | backend/notes_extractor.py:236-244 | The OCR text is empty exactly when every recognised line is blank or there is no result. Otherwise it has no white space at either end. |
| Detection.KeptJoinShape | backend/notes_extractor.py:237-244 | Joining the collected lines gives "" exactly when no line is non-blank, and a string with no white space at either end. |
| Detection.CollectTextLines | backend/notes_extractor.py:244 | If no recognised line holds a newline, splitting non-empty OCR text at newlines gives back exactly the collected lines, and none of them is empty. |
| Detection.OcrImage | backend/notes_extractor.py:172-244 | A missing detection or recognition model fails with the RuntimeError's exact message, and a detector exception keeps its message. A failure to build the recognition input keeps that failure's message. An empty recognition input gives "" without calling recognition. Otherwise recognition is called on exactly that input: its exception keeps its message, and its answer gives the collected text. Any successful text has no white space at either end. |
| Detection.NothingKeptSkipsRecognition | backend/notes_extractor.py:219-220 | When no box survives the filter the text is empty, whatever the recognition model would have answered. |
| Text.Strip | backend/notes_extractor.py:240 | The result sits inside the input with only white space (Python's `isspace` set) before and after it, and has no white space at either end. |
| Text.StripIdempotent | backend/notes_extractor.py:240 | Stripping twice gives the same result as stripping once. |
| Text.StripEmptyIffBlank | backend/notes_extractor.py:240-241 | A line strips to "" exactly when all its characters are white space. |
| Text.StripKeepsCharacters | backend/notes_extractor.py:240 | Every character of the stripped line occurs in the line. |
| Text.Join | backend/notes_extractor.py:244 | Joining no lines gives "". Joining n lines gives their total length plus n - 1 separators. |
| Text.SplitJoin | backend/notes_extractor.py:244 | Splitting the newline-join of lines that contain no newline gives the lines back. |
| Text.JoinSplit | backend/notes_extractor.py:244 | Joining the pieces of a split at newlines gives the string back. |
| Text.IntToString | backend/notes_extractor.py:307 | The decimal rendering of the page index starts with '-' exactly when the index is negative. Every other character is a decimal digit, there is at least one digit, and the digits read back as the index's absolute value. There is no leading zero unless the index is 0. |
| Text.IntToStringInjective | backend/notes_extractor.py:307 | Different page indices print differently. |
| Text.NatToStringRoundTrip | backend/notes_extractor.py:307 | Reading back the decimal digits of a non-negative page index gives the index. |
| NotesExtractor.ColumnBound | backend/notes_extractor.py:363 | OCR gets a column bound exactly for portrait pages, and that bound is 0.80. |
| NotesExtractor.LimitedCrop | backend/notes_extractor.py:331-336 | The crop OCR sees, when limiting succeeds, has no side over 1200 pixels. |
| NotesExtractor.ColumnBoundByPage | backend/notes_extractor.py:363 | Pages not wider than tall get the 0.80 column bound; wider pages get none. |
| NotesExtractor.NotesBox | backend/notes_extractor.py:317-330 | The crop box chosen for any page lies inside that page. |
| NotesExtractor.ExtractNotes | backend/notes_extractor.py:299-389 | A render failure gives a record with only the "Failed to render page N: …" error set. Every returned record has one of the three shapes, and `success` holds exactly when `error` is None. Once rendering succeeds, the crop box, orientation and preview come from the page. An exception escapes exactly when limiting the crop fails, and it is the division by zero. Otherwise the record succeeds exactly when OCR of the limited crop's width, under the page orientation's column bound, succeeds: its text is the notes text, its exception message follows "OCR failed: ". |
| NotesExtractor.ExtractFromPage | backend/notes_extractor.py:311-389 | After rendering, the step fails exactly when limiting the crop fails. Otherwise the record is an OCR failure or a success and carries the page's crop box and orientation, with the preview only when requested. It succeeds exactly when OCR of the limited crop's width under the orientation's column bound succeeds, with that text as notes text; an OCR exception becomes "OCR failed: " and its message. |
| NotesExtractor.RenderFailureMessage | backend/notes_extractor.py:307 | The render-failure error starts with "Failed to render page " and ends with the render exception's message, with the page index in between. |
| NotesExtractor.RenderFailureMessageInjective | backend/notes_extractor.py:307 | The render-failure error determines both the page index and the exception's message. |
| NotesExtractor.OcrFailureMessage | backend/notes_extractor.py:373 | The OCR-failure error is "OCR failed: " followed by exactly the exception's message. |
| NotesExtractor.OcrRecord | backend/notes_extractor.py:365-389 | An OCR failure keeps the crop box, orientation and preview and reports "OCR failed: …". Success carries the text and no error. |
| NotesExtractor.RenderFailureIffRenderFailed | backend/notes_extractor.py:299-309 | A record has the render-failure shape exactly when rendering failed. |
| NotesExtractor.MissingModelsIsOcrFailure | backend/notes_extractor.py:365-375 | Missing models give an OCR-failure record with the RuntimeError's message: the RuntimeError itself never escapes. |
| NotesExtractor.SuccessTextIsStripped | backend/notes_extractor.py:377-389 | The notes text of a successful record has no white space at either end. |
| NotesExtractor.CropImageFlagOnlyAffectsPreview | backend/notes_extractor.py:343-349 | Turning the crop preview off changes the preview field only. |
| NotesExtractor.ExtractReturnsOnReasonablePages | backend/notes_extractor.py:330-336 | On a page at least 4 pixels each way the crop has no zero side, so the extractor always returns a record. |
| NotesExtractor.ThinTallPageRaises | backend/notes_extractor.py:133 | A page 1 pixel wide and 4000 tall crops to a zero-width strip 1560 pixels tall. The division by zero then escapes. |
| Upload.ProcessUpload | backend/main.py:132-173 | Success happens exactly when a name is present, its lower-cased form ends in ".pdf", the read succeeds, the size is at most 50 MiB and conversion succeeds. The response then carries the name, Markdown, size and time, with `error` at its default "". A non-PDF name gives 400 "Only PDF files are supported"; an oversized file gives 400 "File too large (max 50MB)". Every HTTP exception it raises has status 400. A missing name raises the `AttributeError` of `.lower()` on None; a read failure or a failure while saving, loading models or converting raises with its own message. |
| Upload.DefaultResponse | backend/main.py:34-40 | A response built with only `success` has an empty name, Markdown and error, size 0 and time 0.0. |
| Upload.GlobalExceptionHandler | backend/main.py:95-100 | An unhandled exception is answered with status 500, `success` false and the exception's message. |
| Upload.MapException | backend/main.py:175-179 | An HTTP exception is re-raised unchanged. Any other exception becomes status 500 with detail "Processing failed: " followed by its message. |
| Upload.MapExceptionIdempotent | backend/main.py:175-179 | Mapping an already mapped exception changes nothing. |
| Upload.UploadAndProcess | backend/main.py:124-186 | The endpoint succeeds exactly when its body does and the `finally` clause's existence test does not raise. Once the upload's path is assigned, an exception from that test replaces every other outcome. Otherwise a failure is the `except` clauses' mapping of the body's exception: an HTTP exception with status 400 or 500, 400 exactly when the body raised an HTTP exception itself. |
| Upload.Respond | backend/main.py:95-100 | The framework answers a response with exactly that response, an HTTP exception with exactly its status and detail, and any other exception through the global handler (status 500, success false, the message). |
| Upload.GlobalHandlerOnlyOnCleanupFailure | backend/main.py:129-186 | The upload endpoint reaches the global exception handler exactly when the upload's path was assigned and the `finally` clause's `file_path.exists()` raises; the reply then carries that exception's message. |
| Upload.MissingNameReply | backend/main.py:132-179 | A request without a file name is answered 500 with "Processing failed: " and the `AttributeError` message. |
| Upload.ReadFailureReply | backend/main.py:137-179 | A read failure is answered 500 with "Processing failed: " and the read's message. |
| Upload.ConversionFailureReply | backend/main.py:144-186 | When the `finally` clause's existence test does not raise, a failure while saving, loading models or converting is answered 500 with "Processing failed: " and its message. |
| Upload.ConvertedReply | backend/main.py:144-186 | When the `finally` clause's existence test does not raise, a converted upload is answered with success, the name, the Markdown, the byte count and the elapsed time, and an empty error. |
| Upload.TypeCheckPrecedesSizeCheck | backend/main.py:133-142 | A non-PDF name is refused as such, whatever the file's size and whatever reading it would do. |
| Upload.IsPdfName | backend/main.py:134 | A name passes the type check exactly when it has at least four characters and its last four, lower-cased, are ".pdf". |
| Upload.ExtensionCaseInsensitive | backend/main.py:134 | Names ending in ".pdf", ".PDF", ".Pdf" or ".pDF" all pass the type check. |
| Upload.WrongLastCharacterRefused | backend/main.py:134 | A name whose last character is neither 'f' nor 'F' is refused. |
| Upload.SizeBoundInclusive | backend/main.py:141-142 | Exactly 50 MiB (52428800 bytes) is accepted; one byte more is refused as too large. |

## Left out

- The batch client that submits files and aggregates results (deduplication, progress, export) is not part of this model. Its source is not among the modelled files, so the model follows the two backend files only.
- Page rendering (pypdfium2 at a dpi), PIL cropping and LANCZOS resampling, and base64 PNG encoding are opaque. The rendered page's size, the render error and the encoded preview are parameters.
- The detection and recognition models and their keyword arguments (batch sizes, task names, math mode, token limits) are opaque. Their answers are parameters.
- The `surya` import of `TaskNames` at the start of the OCR step is not modelled, because a failing import is outside Python code the model can see.
- Marker's converter, `create_model_dict`, `text_from_rendered` and saving the upload to a temporary file are opaque. Their combined outcome is the `converted` parameter of `Upload.ProcessUpload`.
- The `finally` clause's `file_path.exists()` is opaque. The message it raises (for instance for a name longer than the file system allows) is the `cleanup` parameter of `Upload.UploadAndProcess`. The model lets `converted` and `cleanup` vary independently, although a real file system ties them: a name too long to open is also too long to test. `os.remove` swallows its own errors, so removal changes no outcome.
- The application lifespan (model loading, CUDA detection), CORS, the root and health endpoints, and all `print` logging are left out. They change no result.
- Geometry.CropNotesRegion: template fractions are exact hundredths and `int(w * x_min)` is computed exactly. Python's binary floating point can land one pixel lower when the product is a whole number, which is not modelled.
- Geometry.LimitSize: the scale is the exact rational limit / longest side. Python's float `min(...)` and `int(w * scale)` can differ by one pixel, which is not modelled.
- Detection.Trunc: coordinates and confidences are exact rationals, not IEEE doubles. The centre mean and the column bound `max_col_frac * crop_w` are computed exactly too, so a box centred exactly on the bound can be decided the other way. For example, Python's `0.8 * 3` is 2.4000000000000004 and keeps a box centred at that value, while the model's bound is exactly 2.4 and drops it.
- Detection.CollectTextLines requires that no recognised line contains a newline of its own. A line that does would split into more pieces than were collected.
- The `skipped` count of `Detection.Kept` only feeds a log line. Its value is modelled, but nothing is printed.
- Text.AsciiLower lowers ASCII letters only. For the ".pdf" suffix test this is exact, since only 'P', 'D' and 'F' lower-case to 'p', 'd' and 'f', and '.' lower-cases only to itself.
- The message of `min()` on an empty sequence is CPython's "min() arg is an empty sequence". Newer interpreters may word it differently.
- `Upload.Respond` shows an HTTP exception's reply as its status and detail. It does not model the framework's JSON body layout.

=== FILE: detection.dfy ===
/** The post-processing of the notes extractor's OCR step: detected text-line
    boxes are filtered by confidence and by an optional column bound, sorted
    top to bottom, handed to recognition, and the recognised lines are
    stripped, blank ones dropped and the rest joined with newlines. The
    detection and recognition models are opaque: their outputs are inputs. */
module Detection {
  import opened Wrappers
  import opened Text

  /** Boxes with a detection confidence below this are dropped. */
  const MinDetConfidence: real := 0.5

  /** The message of Python's `min()` on an empty sequence. */
  const EmptyMinMessage := "min() arg is an empty sequence"

  /** The message raised when either model is missing from the model table. */
  const MissingModelsMessage :=
    "'detection_model' or 'recognition_model' missing from models dict. "
    + "Make sure create_model_dict() was called before extract_notes_from_pdf()."

  /** A polygon vertex as the detector reports it. */
  datatype Point = Point(x: real, y: real)

  /** A polygon vertex after `int(...)` on both coordinates. */
  datatype PixelPoint = PixelPoint(x: int, y: int)

  type Polygon = seq<PixelPoint>

  /** One detected text line: its polygon and the detector's confidence. */
  datatype TextBox = TextBox(polygon: seq<Point>, confidence: real)

  /** The filter's output: the kept polygons in detection order, and how many
      confident boxes the column bound dropped. */
  datatype Kept = Kept(polygons: seq<Polygon>, skipped: nat)

  /** The detection model's answer for the crop, or the message it raised. */
  datatype Detector = Detector(output: Result<seq<TextBox>, string>)

  /** The recognition model: its answer for a list of polygons (one list of
      text lines per image), or the message it raised. */
  datatype Recognizer = Recognizer(run: seq<Polygon> -> Result<seq<seq<string>>, string>)

  /** The model table; either entry may be missing. */
  datatype Models = Models(detector: Option<Detector>, recognizer: Option<Recognizer>)

  /** Python's `int(x)` on a float: truncation toward zero. */
  function Trunc(x: real): (r: int)
    ensures x >= 0.0 ==> r as real <= x < r as real + 1.0
    ensures x < 0.0 ==> r as real - 1.0 < x <= r as real
  {
    if x >= 0.0 then x.Floor else -((-x).Floor)
  }

  /** Truncation keeps order: a smaller float never truncates to a larger int. */
  lemma TruncMonotone(x: real, y: real)
    requires x <= y
    ensures Trunc(x) <= Trunc(y)
  {
  }

  /** The polygon as handed on: each vertex with both coordinates truncated,
      x staying x and y staying y, in the detector's vertex order. */
  function ToPixels(poly: seq<Point>): (p: Polygon)
    ensures |p| == |poly|
    ensures forall k :: 0 <= k < |poly| ==> p[k] == PixelPoint(Trunc(poly[k].x), Trunc(poly[k].y))
  {
    seq(|poly|, k requires 0 <= k < |poly| => PixelPoint(Trunc(poly[k].x), Trunc(poly[k].y)))
  }

  /** The smallest y among a polygon's vertices, before truncation. */
  function MinY(poly: seq<Point>): real
    requires |poly| > 0
  {
    if |poly| == 1 then poly[0].y
    else
      var m := MinY(poly[..|poly| - 1]);
      if poly[|poly| - 1].y < m then poly[|poly| - 1].y else m
  }

  /** The sort key of a truncated polygon is the truncated smallest y of the
      detected one: truncating first and taking the minimum after agree. */
  lemma {:induction false} TopYOfPixels(poly: seq<Point>)
    requires |poly| > 0
    ensures TopY(ToPixels(poly)) == Trunc(MinY(poly))
  {
    if |poly| > 1 {
      var init := poly[..|poly| - 1];
      var p := ToPixels(poly);
      assert p[..|p| - 1] == ToPixels(init);
      TopYOfPixels(init);
      var last := poly[|poly| - 1].y;
      if last < MinY(init) {
        TruncMonotone(last, MinY(init));
      } else {
        TruncMonotone(MinY(init), last);
      }
    }
  }

  /** The truncated polygon of every box, in detection order. */
  function Pixels(boxes: seq<TextBox>): (ps: seq<Polygon>)
    ensures |ps| == |boxes|
    ensures forall k :: 0 <= k < |boxes| ==> ps[k] == ToPixels(boxes[k].polygon)
  {
    seq(|boxes|, k requires 0 <= k < |boxes| => ToPixels(boxes[k].polygon))
  }

  function SumX(poly: seq<Point>): real {
    if |poly| == 0 then 0.0 else SumX(poly[..|poly| - 1]) + poly[|poly| - 1].x
  }

  /** The mean x of a polygon's vertices. */
  function CentreX(poly: seq<Point>): (c: real)
    requires |poly| > 0
    ensures c * (|poly| as real) == SumX(poly)
  {
    DivTimes(SumX(poly), |poly| as real);
    SumX(poly) / (|poly| as real)
  }

  lemma DivTimes(s: real, n: real)
    requires n > 0.0
    ensures (s / n) * n == s
  {
  }

  /** Vertices between `lo` and `hi` sum to between |poly| times each. */
  lemma {:induction false} SumXBounds(poly: seq<Point>, lo: real, hi: real)
    requires forall k :: 0 <= k < |poly| ==> lo <= poly[k].x <= hi
    ensures (|poly| as real) * lo <= SumX(poly) <= (|poly| as real) * hi
  {
    if |poly| > 0 {
      var init := poly[..|poly| - 1];
      var m := |init| as real;
      assert forall k :: 0 <= k < |init| ==> init[k] == poly[k];
      SumXBounds(init, lo, hi);
      assert (|poly| as real) * lo == m * lo + lo && (|poly| as real) * hi == m * hi + hi;
    }
  }

  /** The centre lies between the leftmost and the rightmost vertex. */
  lemma {:induction false} CentreXBetween(poly: seq<Point>, lo: real, hi: real)
    requires |poly| > 0
    requires forall k :: 0 <= k < |poly| ==> lo <= poly[k].x <= hi
    ensures lo <= CentreX(poly) <= hi
  {
    var n := |poly| as real;
    var c := CentreX(poly);
    SumXBounds(poly, lo, hi);
    assert n * lo <= c * n <= n * hi;
    assert (c - lo) * n >= 0.0 && (hi - c) * n >= 0.0;
  }

  predicate Confident(b: TextBox) {
    b.confidence >= MinDetConfidence
  }

  /** The box's centre lies right of `frac` of the crop width. */
  predicate RightOfColumn(b: TextBox, cropW: nat, frac: real)
    requires |b.polygon| > 0
  {
    CentreX(b.polygon) > frac * cropW as real
  }

  /** The box survives both tests. */
  predicate Passes(b: TextBox, cropW: nat, maxColFrac: Option<real>) {
    && Confident(b)
    && (maxColFrac.None? || (|b.polygon| > 0 && !RightOfColumn(b, cropW, maxColFrac.value)))
  }

  /** The box is confident but the column bound drops it. */
  predicate SpatiallyDropped(b: TextBox, cropW: nat, maxColFrac: Option<real>) {
    && Confident(b)
    && maxColFrac.Some?
    && |b.polygon| > 0
    && RightOfColumn(b, cropW, maxColFrac.value)
  }

  /** With a column bound set, every confident box has a vertex, so that its
      centre can be computed. */
  predicate CentresDefined(boxes: seq<TextBox>, maxColFrac: Option<real>) {
    maxColFrac.None? || forall k :: 0 <= k < |boxes| && Confident(boxes[k]) ==> |boxes[k].polygon| > 0
  }

  /** Reference definition: the boxes that pass, in detection order. */
  function Selected(boxes: seq<TextBox>, cropW: nat, maxColFrac: Option<real>): seq<TextBox> {
    if |boxes| == 0 then []
    else
      var last := boxes[|boxes| - 1];
      Selected(boxes[..|boxes| - 1], cropW, maxColFrac) + (if Passes(last, cropW, maxColFrac) then [last] else [])
  }

  /** Reference count of the boxes the column bound drops. */
  function CountDropped(boxes: seq<TextBox>, cropW: nat, maxColFrac: Option<real>): nat {
    if |boxes| == 0 then 0
    else
      CountDropped(boxes[..|boxes| - 1], cropW, maxColFrac)
      + (if SpatiallyDropped(boxes[|boxes| - 1], cropW, maxColFrac) then 1 else 0)
  }

  function CountConfident(boxes: seq<TextBox>): nat {
    if |boxes| == 0 then 0
    else CountConfident(boxes[..|boxes| - 1]) + (if Confident(boxes[|boxes| - 1]) then 1 else 0)
  }

  /** The filtering loop from box `i` on, with `acc` holding what boxes
      `0..i` produced. */
  function FilterFrom(boxes: seq<TextBox>, cropW: nat, maxColFrac: Option<real>, i: nat, acc: Kept)
    : (r: Result<Kept, string>)
    requires i <= |boxes|
    requires CentresDefined(boxes[..i], maxColFrac)
    requires acc == Kept(Pixels(Selected(boxes[..i], cropW, maxColFrac)), CountDropped(boxes[..i], cropW, maxColFrac))
    ensures r.Failure? <==> !CentresDefined(boxes, maxColFrac)
    ensures r.Failure? ==> r.error == DivisionByZeroMessage
    ensures r.Success? ==>
      r.value == Kept(Pixels(Selected(boxes, cropW, maxColFrac)), CountDropped(boxes, cropW, maxColFrac))
    decreases |boxes| - i
  {
    if i == |boxes| then
      assert boxes[..i] == boxes;
      Success(acc)
    else
      var b := boxes[i];
      FilterStep(boxes, cropW, maxColFrac, i);
      if b.confidence < MinDetConfidence then
        FilterFrom(boxes, cropW, maxColFrac, i + 1, acc)
      else if maxColFrac.Some? && |b.polygon| == 0 then
        Failure(DivisionByZeroMessage)
      else if maxColFrac.Some? && CentreX(b.polygon) > maxColFrac.value * cropW as real then
        FilterFrom(boxes, cropW, maxColFrac, i + 1, acc.(skipped := acc.skipped + 1))
      else
        FilterFrom(boxes, cropW, maxColFrac, i + 1, acc.(polygons := acc.polygons + [ToPixels(b.polygon)]))
  }

  /** One step of the loop: how the reference definitions grow by box `i`. */
  lemma FilterStep(boxes: seq<TextBox>, cropW: nat, maxColFrac: Option<real>, i: nat)
    requires i < |boxes|
    ensures var b := boxes[i];
      && Pixels(Selected(boxes[..i + 1], cropW, maxColFrac))
         == Pixels(Selected(boxes[..i], cropW, maxColFrac)) + (if Passes(b, cropW, maxColFrac) then [ToPixels(b.polygon)] else [])
      && CountDropped(boxes[..i + 1], cropW, maxColFrac)
         == CountDropped(boxes[..i], cropW, maxColFrac) + (if SpatiallyDropped(b, cropW, maxColFrac) then 1 else 0)
      && (CentresDefined(boxes[..i], maxColFrac) && (maxColFrac.None? || !Confident(b) || |b.polygon| > 0)
          ==> CentresDefined(boxes[..i + 1], maxColFrac))
      && (maxColFrac.Some? && Confident(b) && |b.polygon| == 0 ==> !CentresDefined(boxes, maxColFrac))
  {
    var b := boxes[i];
    var pre := boxes[..i + 1];
    assert pre[..i] == boxes[..i];
    assert pre[i] == b;
    var sel := Selected(boxes[..i], cropW, maxColFrac);
    var tail: seq<TextBox> := if Passes(b, cropW, maxColFrac) then [b] else [];
    PixelsAppend(sel, tail);
  }

  lemma PixelsAppend(a: seq<TextBox>, b: seq<TextBox>)
    ensures Pixels(a + b) == Pixels(a) + Pixels(b)
  {
    assert forall k :: 0 <= k < |a| ==> (a + b)[k] == a[k];
    assert forall k :: |a| <= k < |a + b| ==> (a + b)[k] == b[k - |a|];
  }

  /** The `for bbox in det_result.bboxes` loop: keeps the truncated polygons of
      the boxes that pass, in order, and counts the spatial drops. A box with
      no vertex under a column bound makes the centre a division by zero. */
  function FilterBoxes(boxes: seq<TextBox>, cropW: nat, maxColFrac: Option<real>): (r: Result<Kept, string>)
    ensures r.Failure? <==> !CentresDefined(boxes, maxColFrac)
    ensures r.Failure? ==> r.error == DivisionByZeroMessage
    ensures r.Success? ==>
      r.value == Kept(Pixels(Selected(boxes, cropW, maxColFrac)), CountDropped(boxes, cropW, maxColFrac))
  {
    FilterFrom(boxes, cropW, maxColFrac, 0, Kept([], 0))
  }

  /** Every selected box is a detected box that is confident and, under a
      column bound, centred at or left of the bound. */
  lemma {:induction false} SelectedSound(boxes: seq<TextBox>, cropW: nat, maxColFrac: Option<real>, b: TextBox)
    requires b in Selected(boxes, cropW, maxColFrac)
    ensures b in boxes
    ensures b.confidence >= MinDetConfidence
    ensures maxColFrac.Some? ==> |b.polygon| > 0 && CentreX(b.polygon) <= maxColFrac.value * cropW as real
  {
    if |boxes| > 0 {
      var init := boxes[..|boxes| - 1];
      if b in Selected(init, cropW, maxColFrac) {
        SelectedSound(init, cropW, maxColFrac, b);
      } else {
        assert b == boxes[|boxes| - 1];
      }
    }
  }

  /** Every detected box that passes both tests is selected. */
  lemma {:induction false} SelectedComplete(boxes: seq<TextBox>, cropW: nat, maxColFrac: Option<real>, k: nat)
    requires k < |boxes|
    requires Passes(boxes[k], cropW, maxColFrac)
    ensures boxes[k] in Selected(boxes, cropW, maxColFrac)
  {
    var init := boxes[..|boxes| - 1];
    if k < |boxes| - 1 {
      assert init[k] == boxes[k];
      SelectedComplete(init, cropW, maxColFrac, k);
    }
  }

  /** Under a column bound the confident boxes split exactly into the selected
      ones and the spatially dropped ones; without one, nothing is dropped
      spatially and every confident box is selected. */
  lemma {:induction false} FilterAccounting(boxes: seq<TextBox>, cropW: nat, maxColFrac: Option<real>)
    requires CentresDefined(boxes, maxColFrac)
    ensures |Selected(boxes, cropW, maxColFrac)| + CountDropped(boxes, cropW, maxColFrac) == CountConfident(boxes)
    ensures maxColFrac.None? ==> CountDropped(boxes, cropW, maxColFrac) == 0
  {
    if |boxes| > 0 {
      var init := boxes[..|boxes| - 1];
      assert CentresDefined(init, maxColFrac) by {
        if maxColFrac.Some? {
          forall k | 0 <= k < |init| && Confident(init[k]) ensures |init[k].polygon| > 0 {
            assert init[k] == boxes[k];
          }
        }
      }
      FilterAccounting(init, cropW, maxColFrac);
    }
  }

  /** The topmost y of a polygon: Python's `min(p[1] for p in poly)`, the y
      of one of its vertices with no vertex above it. */
  function TopY(p: Polygon): (m: int)
    requires |p| > 0
    ensures forall k :: 0 <= k < |p| ==> m <= p[k].y
    ensures exists k :: 0 <= k < |p| && p[k].y == m
  {
    if |p| == 1 then p[0].y
    else
      var init := p[..|p| - 1];
      var m := TopY(init);
      assert forall k :: 0 <= k < |init| ==> init[k] == p[k];
      if p[|p| - 1].y < m then p[|p| - 1].y else m
  }

  /** A polygon paired with its sort key: Python's keyed sort computes every
      key before it orders anything. */
  datatype Keyed = Keyed(top: int, polygon: Polygon)

  /** Some polygon has no vertex. */
  predicate HasEmptyPolygon(ps: seq<Polygon>) {
    exists k :: 0 <= k < |ps| && |ps[k]| == 0
  }

  /** Every entry carries its own polygon's top as key. */
  predicate KeysMatch(ks: seq<Keyed>) {
    forall k :: 0 <= k < |ks| ==> |ks[k].polygon| > 0 && ks[k].top == TopY(ks[k].polygon)
  }

  /** The keys of all polygons, in order; `min()` on a polygon without
      vertices raises before anything is ordered. */
  function KeyByTop(ps: seq<Polygon>): (r: Result<seq<Keyed>, string>)
    ensures r.Failure? <==> HasEmptyPolygon(ps)
    ensures r.Failure? ==> r.error == EmptyMinMessage
    ensures r.Success? ==> KeysMatch(r.value) && Polygons(r.value) == ps
  {
    if HasEmptyPolygon(ps) then Failure(EmptyMinMessage)
    else
      var ks := seq(|ps|, k requires 0 <= k < |ps| => Keyed(TopY(ps[k]), ps[k]));
      assert Polygons(ks) == ps;
      Success(ks)
  }

  function Polygons(ks: seq<Keyed>): (ps: seq<Polygon>)
    ensures |ps| == |ks|
  {
    seq(|ks|, k requires 0 <= k < |ks| => ks[k].polygon)
  }

  predicate SortedByTop(ks: seq<Keyed>) {
    forall i, j :: 0 <= i < j < |ks| ==> ks[i].top <= ks[j].top
  }

  /** Inserts `x` before the first entry whose top is not above its own. */
  function InsertByTop(x: Keyed, ks: seq<Keyed>): (r: seq<Keyed>)
    ensures multiset(r) == multiset(ks) + multiset{x}
  {
    if |ks| == 0 then [x]
    else if x.top <= ks[0].top then [x] + ks
    else
      assert ks == [ks[0]] + ks[1..];
      [ks[0]] + InsertByTop(x, ks[1..])
  }

  /** When `x` belongs before the first entry, the insertion puts it at the front. */
  lemma InsertAtFront(x: Keyed, ks: seq<Keyed>)
    requires |ks| == 0 || x.top <= ks[0].top
    ensures InsertByTop(x, ks) == [x] + ks
  {
    if |ks| == 0 {
      assert [x] + ks == [x];
    }
  }

  /** Otherwise the first entry stays first and `x` goes into the rest. */
  lemma InsertPastFront(x: Keyed, ks: seq<Keyed>)
    requires |ks| > 0 && x.top > ks[0].top
    ensures InsertByTop(x, ks) == [ks[0]] + InsertByTop(x, ks[1..])
  {
  }

  /** A lower bound on every top in `ks` and on `x` bounds the result of the insertion. */
  lemma {:induction false} InsertKeepsLowerBound(x: Keyed, ks: seq<Keyed>, b: int)
    requires b <= x.top
    requires forall k :: 0 <= k < |ks| ==> b <= ks[k].top
    ensures forall k :: 0 <= k < |InsertByTop(x, ks)| ==> b <= InsertByTop(x, ks)[k].top
  {
    if |ks| > 0 && x.top > ks[0].top {
      InsertPastFront(x, ks);
      InsertKeepsLowerBound(x, ks[1..], b);
      ConsBounded(ks[0], InsertByTop(x, ks[1..]), b);
    } else {
      InsertAtFront(x, ks);
      ConsBounded(x, ks, b);
    }
  }

  lemma ConsBounded(x: Keyed, ks: seq<Keyed>, b: int)
    requires b <= x.top
    requires forall k :: 0 <= k < |ks| ==> b <= ks[k].top
    ensures forall k :: 0 <= k < |[x] + ks| ==> b <= ([x] + ks)[k].top
  {
    var r := [x] + ks;
    forall k | 0 <= k < |r| ensures b <= r[k].top {
      if k > 0 {
        assert r[k] == ks[k - 1];
      }
    }
  }

  /** An entry no lower than everything after it extends a sorted list. */
  lemma ConsSorted(x: Keyed, ks: seq<Keyed>)
    requires SortedByTop(ks)
    requires forall k :: 0 <= k < |ks| ==> x.top <= ks[k].top
    ensures SortedByTop([x] + ks)
  {
    var r := [x] + ks;
    forall i, j | 0 <= i < j < |r| ensures r[i].top <= r[j].top {
      if i == 0 {
        assert r[j] == ks[j - 1];
      } else {
        assert r[i] == ks[i - 1] && r[j] == ks[j - 1];
      }
    }
  }

  /** Inserting into a sorted list keeps it sorted. */
  lemma {:induction false} InsertSorted(x: Keyed, ks: seq<Keyed>)
    requires SortedByTop(ks)
    ensures SortedByTop(InsertByTop(x, ks))
  {
    if |ks| > 0 && x.top > ks[0].top {
      var tail := ks[1..];
      assert SortedByTop(tail) by {
        forall i, j | 0 <= i < j < |tail| ensures tail[i].top <= tail[j].top {
          assert tail[i] == ks[i + 1] && tail[j] == ks[j + 1];
        }
      }
      assert forall k :: 0 <= k < |tail| ==> ks[0].top <= tail[k].top by {
        forall k | 0 <= k < |tail| ensures ks[0].top <= tail[k].top {
          assert tail[k] == ks[k + 1];
        }
      }
      InsertPastFront(x, ks);
      InsertSorted(x, tail);
      InsertKeepsLowerBound(x, tail, ks[0].top);
      ConsSorted(ks[0], InsertByTop(x, tail));
    } else {
      InsertAtFront(x, ks);
      assert forall k :: 0 <= k < |ks| ==> x.top <= ks[k].top by {
        forall k | 0 <= k < |ks| ensures x.top <= ks[k].top {
          if k > 0 {
            assert ks[0].top <= ks[k].top;
          }
        }
      }
      ConsSorted(x, ks);
    }
  }

  /** Python's stable `polygons.sort(key=top y)`, as an insertion sort. */
  function SortByTop(ks: seq<Keyed>): (r: seq<Keyed>)
    ensures multiset(r) == multiset(ks)
    ensures SortedByTop(r)
  {
    if |ks| == 0 then []
    else
      assert ks == [ks[0]] + ks[1..];
      var rest := SortByTop(ks[1..]);
      InsertSorted(ks[0], rest);
      InsertByTop(ks[0], rest)
  }

  /** The entries whose top is at `y`, in order. */
  function WithTop(ks: seq<Keyed>, y: int): seq<Keyed> {
    if |ks| == 0 then []
    else (if ks[0].top == y then [ks[0]] else []) + WithTop(ks[1..], y)
  }

  lemma {:induction false} WithTopCons(x: Keyed, ks: seq<Keyed>, y: int)
    ensures WithTop([x] + ks, y) == (if x.top == y then [x] else []) + WithTop(ks, y)
  {
    assert ([x] + ks)[0] == x;
    assert ([x] + ks)[1..] == ks;
  }

  lemma {:induction false} InsertStable(x: Keyed, ks: seq<Keyed>, y: int)
    ensures WithTop(InsertByTop(x, ks), y) == WithTop([x] + ks, y)
  {
    if |ks| > 0 && x.top > ks[0].top {
      var head, tail := ks[0], ks[1..];
      var rest := InsertByTop(x, tail);
      var hx: seq<Keyed> := if x.top == y then [x] else [];
      var hh: seq<Keyed> := if head.top == y then [head] else [];
      var w := WithTop(tail, y);
      assert WithTop(InsertByTop(x, ks), y) == hh + (hx + w) by {
        InsertPastFront(x, ks);
        InsertStable(x, tail, y);
        WithTopCons(head, rest, y);
        WithTopCons(x, tail, y);
      }
      assert WithTop([x] + ks, y) == hx + (hh + w) by {
        WithTopCons(x, ks, y);
        assert ks == [head] + tail;
        WithTopCons(head, tail, y);
      }
      SwapSingletons(hh, hx, w);
    } else {
      InsertAtFront(x, ks);
    }
  }

  lemma SwapSingletons(a: seq<Keyed>, b: seq<Keyed>, w: seq<Keyed>)
    requires a == [] || b == []
    ensures a + (b + w) == b + (a + w)
  {
    if a == [] {
      assert a + (b + w) == b + w;
      assert a + w == w;
    } else {
      assert b + w == w;
      assert b + (a + w) == a + w;
    }
  }

  /** The sort is stable: entries with equal tops keep their relative order. */
  lemma {:induction false} SortStable(ks: seq<Keyed>, y: int)
    ensures WithTop(SortByTop(ks), y) == WithTop(ks, y)
  {
    if |ks| > 0 {
      SortStable(ks[1..], y);
      InsertStable(ks[0], SortByTop(ks[1..]), y);
      WithTopCons(ks[0], SortByTop(ks[1..]), y);
      assert ks == [ks[0]] + ks[1..];
      WithTopCons(ks[0], ks[1..], y);
    }
  }

  lemma PolygonsCons(ks: seq<Keyed>)
    requires |ks| > 0
    ensures Polygons(ks) == [ks[0].polygon] + Polygons(ks[1..])
  {
    assert Polygons(ks)[1..] == Polygons(ks[1..]);
  }

  lemma PolygonsAppend(a: seq<Keyed>, b: seq<Keyed>)
    ensures Polygons(a + b) == Polygons(a) + Polygons(b)
  {
    assert forall k :: 0 <= k < |a| ==> (a + b)[k] == a[k];
    assert forall k :: |a| <= k < |a + b| ==> (a + b)[k] == b[k - |a|];
  }

  /** Reordering the entries reorders their polygons the same way. */
  lemma {:induction false} PolygonsPermutation(a: seq<Keyed>, b: seq<Keyed>)
    requires multiset(a) == multiset(b)
    ensures multiset(Polygons(a)) == multiset(Polygons(b))
    decreases |a|
  {
    if |a| == 0 {
      assert |multiset(b)| == 0;
    } else {
      var x := a[0];
      assert x in multiset(b);
      var j :| 0 <= j < |b| && b[j] == x;
      var before, after := b[..j], b[j + 1..];
      RemoveMatching(a, b, j);
      PolygonsPermutation(a[1..], before + after);
      PolygonsCons(a);
      PolygonsSplitAt(b, j);
      PolygonsAppend(before, after);
    }
  }

  /** Taking the first entry of `a` from `a`, and a matching entry from `b`,
      leaves equal multisets. */
  lemma RemoveMatching(a: seq<Keyed>, b: seq<Keyed>, j: nat)
    requires multiset(a) == multiset(b)
    requires 0 < |a| && j < |b| && b[j] == a[0]
    ensures multiset(a[1..]) == multiset(b[..j] + b[j + 1..])
  {
    var x := a[0];
    assert a == [x] + a[1..];
    assert b == b[..j] + [x] + b[j + 1..];
    calc {
      multiset(a[1..]);
      multiset(a) - multiset{x};
      multiset(b) - multiset{x};
      multiset(b[..j]) + multiset(b[j + 1..]);
      multiset(b[..j] + b[j + 1..]);
    }
  }

  lemma PolygonsSplitAt(b: seq<Keyed>, j: nat)
    requires j < |b|
    ensures Polygons(b) == Polygons(b[..j]) + [b[j].polygon] + Polygons(b[j + 1..])
  {
    assert b == b[..j] + ([b[j]] + b[j + 1..]);
    PolygonsAppend(b[..j], [b[j]] + b[j + 1..]);
    PolygonsCons([b[j]] + b[j + 1..]);
    assert ([b[j]] + b[j + 1..])[1..] == b[j + 1..];
  }

  /** Entries whose keys match their polygons still do after a reordering. */
  lemma KeysMatchPermutation(a: seq<Keyed>, b: seq<Keyed>)
    requires KeysMatch(a)
    requires multiset(a) == multiset(b)
    ensures KeysMatch(b)
  {
    forall k | 0 <= k < |b| ensures |b[k].polygon| > 0 && b[k].top == TopY(b[k].polygon) {
      assert b[k] in multiset(a);
      var i :| 0 <= i < |a| && a[i] == b[k];
    }
  }

  /** The non-empty polygons whose top is at `y`, in order. */
  function PolygonsAtTop(ps: seq<Polygon>, y: int): seq<Polygon> {
    if |ps| == 0 then []
    else (if |ps[0]| > 0 && TopY(ps[0]) == y then [ps[0]] else []) + PolygonsAtTop(ps[1..], y)
  }

  /** With matching keys, picking the entries at a top and taking their
      polygons is picking the polygons at that top. */
  lemma {:induction false} PolygonsAtTopOfKeyed(ks: seq<Keyed>, y: int)
    requires KeysMatch(ks)
    ensures PolygonsAtTop(Polygons(ks), y) == Polygons(WithTop(ks, y))
  {
    if |ks| > 0 {
      var x := ks[0];
      var h: seq<Keyed> := if x.top == y then [x] else [];
      assert KeysMatch(ks[1..]) by {
        forall k | 0 <= k < |ks[1..]| ensures |ks[1..][k].polygon| > 0 && ks[1..][k].top == TopY(ks[1..][k].polygon) {
          assert ks[1..][k] == ks[k + 1];
        }
      }
      PolygonsAtTopOfKeyed(ks[1..], y);
      PolygonsCons(ks);
      var ps := Polygons(ks);
      assert ps[0] == x.polygon && ps[1..] == Polygons(ks[1..]);
      assert WithTop(ks, y) == h + WithTop(ks[1..], y);
      PolygonsAppend(h, WithTop(ks[1..], y));
      assert Polygons(h) == (if x.top == y then [x.polygon] else []);
    }
  }

  /** `out` is `input` sorted top to bottom by a stable sort: every polygon
      has a vertex, tops never decrease, the polygons are the same ones, and
      the polygons sharing a top keep their input order. */
  ghost predicate StablySortedByTop(out: seq<Polygon>, input: seq<Polygon>) {
    && (forall k :: 0 <= k < |out| ==> |out[k]| > 0)
    && (forall i, j :: 0 <= i < j < |out| && |out[i]| > 0 && |out[j]| > 0 ==> TopY(out[i]) <= TopY(out[j]))
    && multiset(out) == multiset(input)
    && (forall y :: PolygonsAtTop(out, y) == PolygonsAtTop(input, y))
  }

  lemma SortedPolygonsOrdered(sorted: seq<Keyed>)
    requires KeysMatch(sorted) && SortedByTop(sorted)
    ensures forall k :: 0 <= k < |Polygons(sorted)| ==> |Polygons(sorted)[k]| > 0
    ensures forall i, j :: 0 <= i < j < |Polygons(sorted)| && |Polygons(sorted)[i]| > 0 && |Polygons(sorted)[j]| > 0 ==>
      TopY(Polygons(sorted)[i]) <= TopY(Polygons(sorted)[j])
  {
    var out := Polygons(sorted);
    forall i, j | 0 <= i < j < |out| && |out[i]| > 0 && |out[j]| > 0 ensures TopY(out[i]) <= TopY(out[j]) {
      assert out[i] == sorted[i].polygon && out[j] == sorted[j].polygon;
    }
  }

  lemma SortedPolygonsStable(keyed: seq<Keyed>, sorted: seq<Keyed>)
    requires KeysMatch(keyed) && KeysMatch(sorted)
    requires forall y :: WithTop(sorted, y) == WithTop(keyed, y)
    ensures forall y :: PolygonsAtTop(Polygons(sorted), y) == PolygonsAtTop(Polygons(keyed), y)
  {
    forall y ensures PolygonsAtTop(Polygons(sorted), y) == PolygonsAtTop(Polygons(keyed), y) {
      PolygonsAtTopOfKeyed(sorted, y);
      PolygonsAtTopOfKeyed(keyed, y);
    }
  }

  /** Sorting the keyed polygons puts the polygons themselves in stable top order. */
  lemma SortByTopOrdersPolygons(ps: seq<Polygon>, keyed: seq<Keyed>)
    requires KeysMatch(keyed) && Polygons(keyed) == ps
    ensures StablySortedByTop(Polygons(SortByTop(keyed)), ps)
  {
    var sorted := SortByTop(keyed);
    KeysMatchPermutation(keyed, sorted);
    SortedPolygonsOrdered(sorted);
    PolygonsPermutation(sorted, keyed);
    forall y ensures WithTop(sorted, y) == WithTop(keyed, y) {
      SortStable(keyed, y);
    }
    SortedPolygonsStable(keyed, sorted);
  }

  /** The polygons handed to recognition: the kept polygons sorted by top.
      Filtering fails on a confident box without vertices under a column
      bound; otherwise keying fails on a kept polygon without vertices. */
  function RecognitionInput(boxes: seq<TextBox>, cropW: nat, maxColFrac: Option<real>): (r: Result<seq<Polygon>, string>)
    ensures r.Failure? <==> !CentresDefined(boxes, maxColFrac) || HasEmptyPolygon(Pixels(Selected(boxes, cropW, maxColFrac)))
    ensures r.Failure? ==> r.error == (if CentresDefined(boxes, maxColFrac) then EmptyMinMessage else DivisionByZeroMessage)
    ensures r.Success? ==> StablySortedByTop(r.value, Pixels(Selected(boxes, cropW, maxColFrac)))
  {
    var kept :- FilterBoxes(boxes, cropW, maxColFrac);
    var keyed :- KeyByTop(kept.polygons);
    SortByTopOrdersPolygons(kept.polygons, keyed);
    Success(Polygons(SortByTop(keyed)))
  }

  /** The recognised lines, each stripped, blank ones left out. */
  function KeptLines(lines: seq<string>): (r: seq<string>)
    ensures |r| <= |lines|
  {
    if |lines| == 0 then []
    else
      var t := Strip(lines[0]);
      (if t != "" then [t] else []) + KeptLines(lines[1..])
  }

  /** Collecting works line by line in order: the kept lines of two blocks
      of lines are the kept lines of the first, then of the second. */
  lemma {:induction false} KeptLinesAppend(a: seq<string>, b: seq<string>)
    ensures KeptLines(a + b) == KeptLines(a) + KeptLines(b)
  {
    if |a| == 0 {
      assert a + b == b;
    } else {
      var head := if Strip(a[0]) != "" then [Strip(a[0])] else [];
      var rest, kb := KeptLines(a[1..]), KeptLines(b);
      KeptLinesConsAppend(a, b);
      KeptLinesCons(a);
      KeptLinesAppend(a[1..], b);
      assert KeptLines(a + b) == head + (rest + kb);
      assert KeptLines(a) == head + rest;
      ConcatAssoc(head, rest, kb);
    }
  }

  lemma {:induction false} KeptLinesConsAppend(a: seq<string>, b: seq<string>)
    requires |a| > 0
    ensures KeptLines(a + b) == (if Strip(a[0]) != "" then [Strip(a[0])] else []) + KeptLines(a[1..] + b)
  {
    assert (a + b)[0] == a[0];
    assert (a + b)[1..] == a[1..] + b;
    KeptLinesCons(a + b);
  }

  lemma ConcatAssoc(h: seq<string>, x: seq<string>, y: seq<string>)
    ensures h + (x + y) == (h + x) + y
  {
  }

  /** One line is kept, stripped, exactly when it is not blank. */
  lemma {:induction false} KeptLinesSingle(l: string)
    ensures KeptLines([l]) == (if AllSpace(l) then [] else [Strip(l)])
  {
    StripEmptyIffBlank(l);
    assert [l][1..] == [];
  }

  lemma {:induction false} KeptLinesCons(lines: seq<string>)
    requires |lines| > 0
    ensures KeptLines(lines) == (if Strip(lines[0]) != "" then [Strip(lines[0])] else []) + KeptLines(lines[1..])
  {
  }

  /** Every kept line is non-empty and already stripped. */
  lemma {:induction false} KeptLinesClean(lines: seq<string>)
    ensures forall l :: l in KeptLines(lines) ==> l != "" && Strip(l) == l
  {
    if |lines| > 0 {
      var t := Strip(lines[0]);
      var head := if t != "" then [t] else [];
      KeptLinesCons(lines);
      KeptLinesClean(lines[1..]);
      StripIdempotent(lines[0]);
      forall l | l in KeptLines(lines) ensures l != "" && Strip(l) == l {
        if l in head {
          assert l == t;
        } else {
          assert l in KeptLines(lines[1..]);
        }
      }
    }
  }

  function CountNonBlank(lines: seq<string>): nat {
    if |lines| == 0 then 0 else (if AllSpace(lines[0]) then 0 else 1) + CountNonBlank(lines[1..])
  }

  /** One line is kept for every recognised line that is not all white space. */
  lemma {:induction false} KeptLinesCount(lines: seq<string>)
    ensures |KeptLines(lines)| == CountNonBlank(lines)
  {
    if |lines| > 0 {
      StripEmptyIffBlank(lines[0]);
      KeptLinesCount(lines[1..]);
    }
  }

  /** The lines of the first recognition result, or none. */
  function FirstResultLines(results: seq<seq<string>>): seq<string> {
    if |results| == 0 then [] else results[0]
  }

  /** Step 4 of the OCR: the kept lines joined with newlines. The text is
      empty exactly when every recognised line is blank (or there is no
      result), and otherwise has no white space at either end. */
  function CollectText(results: seq<seq<string>>): (text: string)
    ensures text == "" <==> CountNonBlank(FirstResultLines(results)) == 0
    ensures Strip(text) == text
  {
    KeptJoinShape(FirstResultLines(results));
    Join(KeptLines(FirstResultLines(results)))
  }

  lemma {:induction false} JoinEmptyIff(lines: seq<string>)
    requires forall k :: 0 <= k < |lines| ==> lines[k] != ""
    ensures Join(lines) == "" <==> |lines| == 0
  {
    if |lines| > 1 {
      assert Join(lines) == lines[0] + "\n" + Join(lines[1..]);
    }
  }

  lemma {:induction false} JoinEnds(lines: seq<string>)
    requires |lines| > 0
    requires forall k :: 0 <= k < |lines| ==> lines[k] != ""
    ensures |Join(lines)| > 0
    ensures Join(lines)[0] == lines[0][0]
    ensures Join(lines)[|Join(lines)| - 1] == lines[|lines| - 1][|lines[|lines| - 1]| - 1]
  {
    if |lines| > 1 {
      JoinEnds(lines[1..]);
      var j := Join(lines[1..]);
      assert Join(lines) == lines[0] + "\n" + j;
    }
  }

  /** Joining the kept lines gives "" exactly when every line is blank, and
      never leaves white space at either end. */
  lemma KeptJoinShape(lines: seq<string>)
    ensures Join(KeptLines(lines)) == "" <==> CountNonBlank(lines) == 0
    ensures Strip(Join(KeptLines(lines))) == Join(KeptLines(lines))
  {
    var kept := KeptLines(lines);
    KeptLinesCount(lines);
    KeptLinesClean(lines);
    CleanAtEveryIndex(kept);
    JoinEmptyIff(kept);
    if |kept| > 0 {
      JoinEnds(kept);
    }
    StripUnchanged(Join(kept));
  }

  /** When no recognised line holds a newline of its own, splitting the
      collected text at newlines gives back exactly the kept lines; so no line
      of a non-empty output is empty. */
  lemma CollectTextLines(results: seq<seq<string>>)
    requires forall l :: l in FirstResultLines(results) ==> '\n' !in l
    ensures CollectText(results) != "" ==> Split(CollectText(results)) == KeptLines(FirstResultLines(results))
    ensures CollectText(results) != "" ==>
      forall k :: 0 <= k < |Split(CollectText(results))| ==> Split(CollectText(results))[k] != ""
  {
    var lines := FirstResultLines(results);
    var kept := KeptLines(lines);
    KeptLinesNoNewline(lines);
    KeptLinesClean(lines);
    CleanAtEveryIndex(kept);
    JoinEmptyIff(kept);
    if |kept| > 0 {
      assert forall k :: 0 <= k < |kept| ==> '\n' !in kept[k] by {
        forall k | 0 <= k < |kept| ensures '\n' !in kept[k] {
          assert kept[k] in kept;
        }
      }
      SplitJoin(kept);
    }
  }

  lemma CleanAtEveryIndex(lines: seq<string>)
    requires forall l :: l in lines ==> l != "" && Strip(l) == l
    ensures forall k :: 0 <= k < |lines| ==> lines[k] != "" && Strip(lines[k]) == lines[k]
  {
    forall k | 0 <= k < |lines| ensures lines[k] != "" && Strip(lines[k]) == lines[k] {
      assert lines[k] in lines;
    }
  }

  lemma {:induction false} KeptLinesNoNewline(lines: seq<string>)
    requires forall l :: l in lines ==> '\n' !in l
    ensures forall l :: l in KeptLines(lines) ==> '\n' !in l
  {
    if |lines| > 0 {
      KeptLinesCons(lines);
      assert lines[0] in lines;
      KeptLinesNoNewline(lines[1..]);
      if '\n' in Strip(lines[0]) {
        StripKeepsCharacters(lines[0], '\n');
      }
    }
  }

  /** Both models are present in the model table. */
  predicate Ready(models: Models) {
    models.detector.Some? && models.recognizer.Some?
  }

  /** Python's `_ocr_image_surya` on a crop `cropW` pixels wide: check the
      models, detect, filter, sort by top, and recognise the sorted polygons
      unless none is left. A raised exception keeps its message. */
  function OcrImage(cropW: nat, models: Models, maxColFrac: Option<real>): (r: Result<string, string>)
    ensures !Ready(models) ==> r == Failure(MissingModelsMessage)
    ensures Ready(models) && models.detector.value.output.Failure? ==>
      r == Failure(models.detector.value.output.error)
    ensures Ready(models) && models.detector.value.output.Success? ==>
      var input := RecognitionInput(models.detector.value.output.value, cropW, maxColFrac);
      && (input.Failure? ==> r == Failure(input.error))
      && (input.Success? && |input.value| == 0 ==> r == Success(""))
      && (input.Success? && |input.value| > 0 ==>
            var answer := models.recognizer.value.run(input.value);
            r == if answer.Success? then Success(CollectText(answer.value)) else Failure(answer.error))
    ensures r.Success? ==> Strip(r.value) == r.value
  {
    if !Ready(models) then Failure(MissingModelsMessage)
    else
      var boxes :- models.detector.value.output;
      var polygons :- RecognitionInput(boxes, cropW, maxColFrac);
      if |polygons| == 0 then Success("")
      else
        var results :- models.recognizer.value.run(polygons);
        Success(CollectText(results))
  }

  /** When no box survives the filter, the OCR text is empty whatever the
      recognition model would have answered: recognition is not consulted. */
  lemma NothingKeptSkipsRecognition(cropW: nat, boxes: seq<TextBox>, maxColFrac: Option<real>, rec: Recognizer)
    requires CentresDefined(boxes, maxColFrac)
    requires |Selected(boxes, cropW, maxColFrac)| == 0
    ensures OcrImage(cropW, Models(Some(Detector(Success(boxes))), Some(rec)), maxColFrac) == Success("")
  {
    var input := RecognitionInput(boxes, cropW, maxColFrac);
    assert Pixels(Selected(boxes, cropW, maxColFrac)) == [];
    assert !HasEmptyPolygon([]);
    assert |multiset(input.value)| == 0;
  }
}

=== FILE: extractor.dfy ===
/** `extract_notes_from_pdf`: render the page, pick the template for its
    orientation, crop and limit the Notes region, encode the crop preview,
    run OCR, and report one of three record shapes. Rendering, encoding and
    the models are opaque: their outcomes are inputs. */
module NotesExtractor {
  import opened Wrappers
  import opened Text
  import opened Geometry
  import opened Detection

  /** Portrait crops drop boxes centred right of this fraction of the crop width. */
  const PortraitColumnFraction: real := 0.80

  /** The dictionary the extractor returns. */
  datatype NotesRecord = NotesRecord(
    success: bool,
    notesText: Option<string>,
    cropBbox: Option<Box>,
    orientation: Option<Orientation>,
    error: Option<string>,
    cropImageB64: Option<string>)

  /** The page could not be rendered: only the error is set. */
  predicate RenderFailureShape(r: NotesRecord) {
    && !r.success && r.error.Some?
    && r.notesText.None? && r.cropBbox.None? && r.orientation.None? && r.cropImageB64.None?
  }

  /** OCR failed: no text, but the crop box, orientation and preview are kept. */
  predicate OcrFailureShape(r: NotesRecord) {
    !r.success && r.error.Some? && r.notesText.None? && r.cropBbox.Some? && r.orientation.Some?
  }

  /** Success: text, crop box and orientation are set and there is no error. */
  predicate SuccessShape(r: NotesRecord) {
    r.success && r.error.None? && r.notesText.Some? && r.cropBbox.Some? && r.orientation.Some?
  }

  /** The column bound handed to OCR: 0.80 for portrait pages, none for landscape. */
  function ColumnBound(o: Orientation): (f: Option<real>)
    ensures f.Some? <==> o == Portrait
    ensures f.Some? ==> f.value == PortraitColumnFraction
  {
    if o == Portrait then Some(PortraitColumnFraction) else None
  }

  const RenderFailurePrefix := "Failed to render page "
  const OcrFailurePrefix := "OCR failed: "

  /** The render-failure error: the page index, then the render message. */
  function RenderFailureMessage(pageIdx: int, message: string): (r: string)
    ensures |RenderFailurePrefix| + |message| < |r|
    ensures r[..|RenderFailurePrefix|] == RenderFailurePrefix
    ensures r[|r| - |message|..] == message
  {
    var r := RenderFailurePrefix + IntToString(pageIdx) + ": " + message;
    assert r[|r| - |message|..] == message;
    r
  }

  /** The render-failure error names the page and the render message
      unambiguously: different pages or messages give different errors. */
  lemma {:induction false} RenderFailureMessageInjective(i: int, m: string, j: int, n: string)
    requires RenderFailureMessage(i, m) == RenderFailureMessage(j, n)
    ensures i == j && m == n
  {
    var s, t := IntToString(i), IntToString(j);
    RenderFailureTail(i, m);
    RenderFailureTail(j, n);
    IntToStringNoColon(i);
    IntToStringNoColon(j);
    SplitAtColon(s, " " + m, t, " " + n);
    assert m == (" " + m)[1..] && n == (" " + n)[1..];
    IntToStringInjective(i, j);
  }

  /** After the fixed prefix comes the printed index, a ':' and the rest. */
  lemma {:induction false} RenderFailureTail(i: int, m: string)
    ensures RenderFailureMessage(i, m)[|RenderFailurePrefix|..] == IntToString(i) + (":" + (" " + m))
  {
    var p, s := RenderFailurePrefix, IntToString(i);
    var tail := s + (":" + (" " + m));
    assert ": " + m == ":" + (" " + m);
    assert p + s + ": " + m == p + tail;
    assert (p + tail)[|p|..] == tail;
  }

  /** The OCR-failure error: the exception's message after a fixed prefix,
      which gives the message back. */
  function OcrFailureMessage(message: string): (r: string)
    ensures |r| == |OcrFailurePrefix| + |message|
    ensures r[..|OcrFailurePrefix|] == OcrFailurePrefix
    ensures r[|OcrFailurePrefix|..] == message
  {
    OcrFailurePrefix + message
  }

  /** The Notes crop box of a rendered page. */
  function NotesBox(page: Size): (b: Box)
    ensures InsidePage(b, page)
  {
    CropNotesRegion(page, TemplateFor(DetectOrientation(page)))
  }

  /** The record built from the OCR outcome: an OCR failure keeps the crop box,
      orientation and preview; a success adds the text and clears the error. */
  function OcrRecord(ocr: Result<string, string>, bbox: Box, o: Orientation, cropB64: Option<string>)
    : (r: NotesRecord)
    ensures r.success <==> ocr.Success?
    ensures ocr.Success? ==> SuccessShape(r) && r.notesText == Some(ocr.value)
    ensures ocr.Failure? ==> OcrFailureShape(r) && r.error == Some(OcrFailureMessage(ocr.error))
    ensures r.cropBbox == Some(bbox) && r.orientation == Some(o) && r.cropImageB64 == cropB64
  {
    match ocr
    case Failure(e) => NotesRecord(false, None, Some(bbox), Some(o), Some(OcrFailureMessage(e)), cropB64)
    case Success(text) => NotesRecord(true, Some(text), Some(bbox), Some(o), None, cropB64)
  }

  /** The crop size OCR sees: the Notes box's crop after the size limit, or
      the limit's division by zero. */
  function LimitedCrop(page: Size): (r: Result<Size, string>)
    ensures r.Success? ==> r.value.width <= MaxCropPixels && r.value.height <= MaxCropPixels
  {
    LimitSize(CropSize(NotesBox(page)), MaxCropPixels)
  }

  /** The OCR outcome for a rendered page: the limited crop's width, and the
      column bound of the page's orientation. */
  function PageOcr(page: Size, models: Models): Result<string, string>
    requires LimitedCrop(page).Success?
  {
    OcrImage(LimitedCrop(page).value.width, models, ColumnBound(DetectOrientation(page)))
  }

  /** The steps of `extract_notes_from_pdf` after a successful render. A
      `Failure` is the crop limit's exception escaping. Otherwise OCR runs on
      the limited crop with the orientation's column bound: its text is the
      record's notes text, its exception the record's "OCR failed: ..." error. */
  function ExtractFromPage(page: Size, models: Models, includeCropImage: bool, encoded: Option<string>)
    : (r: Result<NotesRecord, string>)
    ensures r.Failure? <==> LimitedCrop(page).Failure?
    ensures r.Failure? ==> r.error == DivisionByZeroMessage
    ensures r.Success? ==> OcrFailureShape(r.value) || SuccessShape(r.value)
    ensures r.Success? ==>
      && r.value.cropBbox == Some(NotesBox(page))
      && r.value.orientation == Some(DetectOrientation(page))
      && r.value.cropImageB64 == (if includeCropImage then encoded else None)
    ensures r.Success? ==>
      && (r.value.success <==> PageOcr(page, models).Success?)
      && (PageOcr(page, models).Success? ==> r.value.notesText == Some(PageOcr(page, models).value))
      && (PageOcr(page, models).Failure? ==> r.value.error == Some(OcrFailureMessage(PageOcr(page, models).error)))
  {
    var o := DetectOrientation(page);
    var bbox := NotesBox(page);
    var limited :- LimitedCrop(page);
    var cropB64 := if includeCropImage then encoded else None;
    Success(OcrRecord(OcrImage(limited.width, models, ColumnBound(o)), bbox, o, cropB64))
  }

  /** Python's `extract_notes_from_pdf`. `render` is the rendered page's size or
      the message rendering raised; `encoded` is what `_to_b64` returns for the
      limited crop, `None` when it raises. A `Failure` is an exception that
      escapes the function: only the crop limit can raise outside a handler. */
  function ExtractNotes(render: Result<Size, string>, pageIdx: int, models: Models,
                        includeCropImage: bool, encoded: Option<string>): (r: Result<NotesRecord, string>)
    ensures render.Failure? ==>
      && r.Success? && RenderFailureShape(r.value)
      && r.value.error == Some(RenderFailureMessage(pageIdx, render.error))
    ensures r.Failure? <==> render.Success? && LimitedCrop(render.value).Failure?
    ensures r.Failure? ==> r.error == DivisionByZeroMessage
    ensures r.Success? ==> RenderFailureShape(r.value) || OcrFailureShape(r.value) || SuccessShape(r.value)
    ensures r.Success? ==> (r.value.success <==> r.value.error.None?)
    ensures r.Success? && !includeCropImage ==> r.value.cropImageB64.None?
    ensures r.Success? && render.Success? ==>
      && r.value.cropBbox == Some(NotesBox(render.value))
      && r.value.orientation == Some(DetectOrientation(render.value))
      && r.value.cropImageB64 == (if includeCropImage then encoded else None)
    ensures r.Success? && render.Success? ==>
      var ocr := PageOcr(render.value, models);
      && (r.value.success <==> ocr.Success?)
      && (ocr.Success? ==> r.value.notesText == Some(ocr.value))
      && (ocr.Failure? ==> r.value.error == Some(OcrFailureMessage(ocr.error)))
  {
    match render
    case Failure(e) =>
      Success(NotesRecord(false, None, None, None, Some(RenderFailureMessage(pageIdx, e)), None))
    case Success(page) =>
      ExtractFromPage(page, models, includeCropImage, encoded)
  }

  /** The text of a successful record has no white space at either end. */
  lemma SuccessTextIsStripped(page: Size, pageIdx: int, models: Models,
                              includeCropImage: bool, encoded: Option<string>)
    ensures var r := ExtractNotes(Success(page), pageIdx, models, includeCropImage, encoded);
      r.Success? && r.value.success ==> Strip(r.value.notesText.value) == r.value.notesText.value
  {
    if LimitedCrop(page).Success? {
      var ocr := PageOcr(page, models);
      assert ocr.Success? ==> Strip(ocr.value) == ocr.value;
    }
  }

  /** A record is a render failure exactly when rendering failed. */
  lemma RenderFailureIffRenderFailed(render: Result<Size, string>, pageIdx: int, models: Models,
                                     includeCropImage: bool, encoded: Option<string>)
    requires ExtractNotes(render, pageIdx, models, includeCropImage, encoded).Success?
    ensures RenderFailureShape(ExtractNotes(render, pageIdx, models, includeCropImage, encoded).value)
            <==> render.Failure?
  {
  }

  /** Missing models surface as an OCR failure record: the RuntimeError itself
      never escapes the extractor. */
  lemma MissingModelsIsOcrFailure(page: Size, pageIdx: int, models: Models,
                                  includeCropImage: bool, encoded: Option<string>)
    requires models.detector.None? || models.recognizer.None?
    requires ExtractNotes(Success(page), pageIdx, models, includeCropImage, encoded).Success?
    ensures var r := ExtractNotes(Success(page), pageIdx, models, includeCropImage, encoded).value;
      OcrFailureShape(r) && r.error == Some(OcrFailureMessage(MissingModelsMessage))
  {
  }

  /** Turning the preview off changes nothing but the preview field. */
  lemma CropImageFlagOnlyAffectsPreview(render: Result<Size, string>, pageIdx: int, models: Models,
                                        encoded: Option<string>)
    ensures var on := ExtractNotes(render, pageIdx, models, true, encoded);
            var off := ExtractNotes(render, pageIdx, models, false, encoded);
      && (on.Success? <==> off.Success?)
      && (on.Success? ==> off.value == on.value.(cropImageB64 := None))
      && (on.Failure? ==> off == on)
  {
  }

  /** Portrait pages (square ones included) get the 0.80 column bound,
      landscape pages none. */
  lemma ColumnBoundByPage(page: Size)
    ensures ColumnBound(DetectOrientation(page)) == (if page.width <= page.height then Some(0.80) else None)
  {
  }

  /** On a page at least 4 pixels each way the crop has no zero side, so the
      extractor always returns a record. */
  lemma ExtractReturnsOnReasonablePages(page: Size, pageIdx: int, models: Models,
                                        includeCropImage: bool, encoded: Option<string>)
    requires page.width >= 4 && page.height >= 4
    ensures ExtractNotes(Success(page), pageIdx, models, includeCropImage, encoded).Success?
  {
    var t := TemplateFor(DetectOrientation(page));
    FracFloorGap(page.width, t.xMin, t.xMax);
    FracFloorGap(page.height, t.yMin, t.yMax);
  }

  /** A page one pixel wide and 4000 tall crops to a zero-width strip 1560
      pixels tall, and the crop limit's division by zero escapes. */
  lemma ThinTallPageRaises(pageIdx: int, models: Models, includeCropImage: bool, encoded: Option<string>)
    ensures ExtractNotes(Success(Size(1, 4000)), pageIdx, models, includeCropImage, encoded)
            == Failure(DivisionByZeroMessage)
  {
    var b := NotesBox(Size(1, 4000));
    assert b == Box(0, 200, 0, 1760);
  }
}

=== FILE: geometry.dfy ===
/** Page orientation, the per-orientation Notes template, the crop box and the
    crop size limit of the notes extractor. Sizes are in pixels; template
    fractions are integer hundredths of the page size. */
module Geometry {
  import opened Wrappers

  datatype Orientation = Landscape | Portrait

  datatype Size = Size(width: nat, height: nat)

  /** Fractional bounds of the Notes region, in hundredths of the page size. */
  datatype Template = Template(xMin: nat, xMax: nat, yMin: nat, yMax: nat)

  /** A crop rectangle `(x0, y0, x1, y1)` in pixels. */
  datatype Box = Box(x0: nat, y0: nat, x1: nat, y1: nat)

  /** The landscape template: x 0.62-0.92, y 0.09-0.53. */
  const LandscapeTemplate := Template(62, 92, 9, 53)

  /** The portrait template: x 0.12-0.55, y 0.05-0.44. */
  const PortraitTemplate := Template(12, 55, 5, 44)

  /** Crops larger than this on either side are scaled down. */
  const MaxCropPixels: nat := 1200

  /** A page is landscape exactly when it is strictly wider than tall. */
  function DetectOrientation(page: Size): (o: Orientation)
    ensures o == Landscape <==> page.width > page.height
  {
    if page.width > page.height then Landscape else Portrait
  }

  /** The name the extractor reports for an orientation. */
  function OrientationName(o: Orientation): (name: string)
    ensures name == "landscape" <==> o == Landscape
    ensures name == "portrait" <==> o == Portrait
  {
    match o
    case Landscape => "landscape"
    case Portrait => "portrait"
  }

  /** A template is usable when each axis is a non-empty interval of [0, 1]. */
  predicate ValidTemplate(t: Template) {
    t.xMin < t.xMax <= 100 && t.yMin < t.yMax <= 100
  }

  /** The template chosen for an orientation; both choices are usable. */
  function TemplateFor(o: Orientation): (t: Template)
    ensures ValidTemplate(t)
  {
    if o == Landscape then LandscapeTemplate else PortraitTemplate
  }

  /** Pages wider than tall take the landscape template, all others (square
      pages included) the portrait one. */
  lemma TemplateSelection(page: Size)
    ensures page.width > page.height ==> TemplateFor(DetectOrientation(page)) == LandscapeTemplate
    ensures page.width <= page.height ==> TemplateFor(DetectOrientation(page)) == PortraitTemplate
    ensures page.width == page.height ==> OrientationName(DetectOrientation(page)) == "portrait"
  {
  }

  /** Turning a page a quarter turn flips the orientation of a non-square page. */
  lemma OrientationFlipsWhenTurned(page: Size)
    requires page.width != page.height
    ensures DetectOrientation(Size(page.height, page.width)) != DetectOrientation(page)
  {
  }

  /** `int(n * pct / 100)` for non-negative values: the floor of the product. */
  function FracFloor(n: nat, pct: nat): (r: nat)
    ensures r * 100 <= n * pct < r * 100 + 100
  {
    n * pct / 100
  }

  lemma FracFloorMonotone(n: nat, p: nat, q: nat)
    requires p <= q
    ensures FracFloor(n, p) <= FracFloor(n, q)
  {
    assert n * p <= n * q by { MulMonotone(n, p, q); }
  }

  lemma MulMonotone(n: nat, p: nat, q: nat)
    requires p <= q
    ensures n * p <= n * q
  {
  }

  /** Fractions at least a whole pixel apart floor to different pixels. */
  lemma FracFloorGap(n: nat, lo: nat, hi: nat)
    requires n * hi >= n * lo + 100
    ensures FracFloor(n, lo) + 1 <= FracFloor(n, hi)
  {
  }

  lemma FracFloorWhole(n: nat)
    ensures FracFloor(n, 100) == n
  {
  }

  /** The pixel box of a template on a page: each edge is the floor of the
      page side times the edge's fraction, and for a usable template the box
      lies inside the page with its corners in order. */
  function CropNotesRegion(page: Size, t: Template): (b: Box)
    ensures b.x0 * 100 <= page.width * t.xMin < b.x0 * 100 + 100
    ensures b.x1 * 100 <= page.width * t.xMax < b.x1 * 100 + 100
    ensures b.y0 * 100 <= page.height * t.yMin < b.y0 * 100 + 100
    ensures b.y1 * 100 <= page.height * t.yMax < b.y1 * 100 + 100
    ensures ValidTemplate(t) ==> InsidePage(b, page)
  {
    FracBoundsOrdered(page.width, t.xMin, t.xMax);
    FracBoundsOrdered(page.height, t.yMin, t.yMax);
    Box(FracFloor(page.width, t.xMin), FracFloor(page.height, t.yMin),
        FracFloor(page.width, t.xMax), FracFloor(page.height, t.yMax))
  }

  lemma FracBoundsOrdered(n: nat, lo: nat, hi: nat)
    ensures lo <= hi <= 100 ==> FracFloor(n, lo) <= FracFloor(n, hi) <= n
  {
    if lo <= hi <= 100 {
      FracFloorMonotone(n, lo, hi);
      FracFloorMonotone(n, hi, 100);
      FracFloorWhole(n);
    }
  }

  predicate InsidePage(b: Box, page: Size) {
    b.x0 <= b.x1 <= page.width && b.y0 <= b.y1 <= page.height
  }

  /** The size of the image cropped out by an ordered box. */
  function CropSize(b: Box): (s: Size)
    requires b.x0 <= b.x1 && b.y0 <= b.y1
    ensures b.x0 + s.width == b.x1 && b.y0 + s.height == b.y1
  {
    Size(b.x1 - b.x0, b.y1 - b.y0)
  }

  function Max(a: nat, b: nat): nat {
    if a >= b then a else b
  }

  /** One side after scaling by `limit / longest`, truncated, never below 1. */
  function ScaledSide(side: nat, limit: nat, longest: nat): (r: nat)
    requires 0 < longest
    requires side <= longest
    ensures 1 <= r <= Max(limit, 1)
    ensures IsScaled(side, r, limit, longest)
    ensures side == longest ==> r == Max(limit, 1)
  {
    var q := side * limit / longest;
    DivBounds(side * limit, longest);
    ScaleAtMostLimit(side, limit, longest);
    LongestSideScalesToLimit(side, limit, longest);
    if q < 1 then 1 else q
  }

  /** `scaled` is `side * limit / longest` truncated, or 1 when that truncates to 0. */
  predicate IsScaled(side: nat, scaled: nat, limit: nat, longest: nat) {
    || (scaled == 1 && side * limit < longest)
    || (scaled * longest <= side * limit < (scaled + 1) * longest)
  }

  lemma DivBounds(a: nat, m: nat)
    requires 0 < m
    ensures (a / m) * m <= a < (a / m + 1) * m
  {
  }

  lemma MulCancel(m: nat, x: nat, y: nat)
    requires 0 < m
    requires x * m <= y * m
    ensures x <= y
  {
  }

  lemma LongestSideScalesToLimit(side: nat, limit: nat, longest: nat)
    requires 0 < longest
    ensures side == longest ==> side * limit / longest == limit
  {
    if side == longest {
      assert side * limit == limit * longest;
      DivExact(limit, longest);
    }
  }

  lemma DivExact(a: nat, m: nat)
    requires 0 < m
    ensures (a * m) / m == a
  {
    var p := a * m;
    var q := p / m;
    DivBounds(p, m);
    assert q * m <= a * m;
    MulCancel(m, q, a);
    assert a * m < (q + 1) * m;
    MulCancelStrict(m, a, q + 1);
  }

  lemma ScaleAtMostLimit(side: nat, limit: nat, longest: nat)
    requires 0 < longest
    requires side <= longest
    ensures side * limit / longest <= limit
  {
    var p := side * limit;
    var q := p / longest;
    DivBounds(p, longest);
    assert p <= limit * longest by { MulMonotone(limit, side, longest); }
    assert q * longest <= limit * longest;
    MulCancel(longest, q, limit);
  }

  /** Python's `_limit_size`: a crop with both sides within `limit` is kept as
      it is; otherwise both sides are scaled by `limit / max(width, height)`,
      truncated and raised to at least 1. A zero side next to an oversized one
      makes the scale a division by zero, which raises. */
  function LimitSize(s: Size, limit: nat): (r: Result<Size, string>)
    ensures s.width <= limit && s.height <= limit ==> r == Success(s)
    ensures r.Failure? <==> (s.width > limit || s.height > limit) && (s.width == 0 || s.height == 0)
    ensures r.Failure? ==> r.error == DivisionByZeroMessage
    ensures r.Success? && 1 <= limit ==> r.value.width <= limit && r.value.height <= limit
    ensures r.Success? && (s.width > limit || s.height > limit) ==>
      && 1 <= r.value.width && 1 <= r.value.height
      && Max(r.value.width, r.value.height) == Max(limit, 1)
      && (s.width <= s.height ==> r.value.width <= r.value.height)
      && (s.height <= s.width ==> r.value.height <= r.value.width)
      && IsScaled(s.width, r.value.width, limit, Max(s.width, s.height))
      && IsScaled(s.height, r.value.height, limit, Max(s.width, s.height))
  {
    if s.width <= limit && s.height <= limit then Success(s)
    else if s.width == 0 || s.height == 0 then Failure(DivisionByZeroMessage)
    else
      var longest := Max(s.width, s.height);
      var w := ScaledSide(s.width, limit, longest);
      var h := ScaledSide(s.height, limit, longest);
      ScaledSideMonotone(s.width, s.height, limit, longest);
      ScaledSideMonotone(s.height, s.width, limit, longest);
      Success(Size(w, h))
  }

  lemma ScaledSideMonotone(a: nat, b: nat, limit: nat, longest: nat)
    requires 0 < longest
    requires a <= longest && b <= longest
    ensures a <= b ==> ScaledSide(a, limit, longest) <= ScaledSide(b, limit, longest)
  {
    if a <= b {
      assert a * limit <= b * limit by { MulMonotone(limit, a, b); }
      DivMonotone(a * limit, b * limit, longest);
    }
  }

  lemma DivMonotone(a: nat, b: nat, m: nat)
    requires 0 < m
    requires a <= b
    ensures a / m <= b / m
  {
    var qa, qb := a / m, b / m;
    DivBounds(a, m);
    DivBounds(b, m);
    assert qa * m <= a;
    assert b < (qb + 1) * m;
    MulCancelStrict(m, qa, qb + 1);
  }

  lemma MulCancelStrict(m: nat, x: nat, y: nat)
    requires 0 < m
    requires x * m < y * m
    ensures x < y
  {
  }

  /** Limiting an already limited crop changes nothing. */
  lemma LimitSizeIdempotent(s: Size, limit: nat)
    requires 1 <= limit
    requires LimitSize(s, limit).Success?
    ensures LimitSize(LimitSize(s, limit).value, limit) == LimitSize(s, limit)
  {
  }
}

=== FILE: text.dfy ===
/** The string operations the backend relies on, written out as Python defines them:
    `str.strip()`, `"\n".join(...)`, ASCII `str.lower()`, `str.endswith(...)` and
    the decimal rendering of an integer in an f-string. `str.split("\n")` is not
    called by the backend; it is here as the inverse that pins down the join. */
module Text {

  /** Python's `str.isspace()` for one character: the Unicode white-space set. */
  predicate IsSpace(c: char) {
    || c == ' '
    || ('\t' <= c <= '\r')
    || ('\U{1c}' <= c <= '\U{1f}')
    || c == '\U{85}'
    || c == '\U{a0}'
    || c == '\U{1680}'
    || ('\U{2000}' <= c <= '\U{200a}')
    || c == '\U{2028}'
    || c == '\U{2029}'
    || c == '\U{202f}'
    || c == '\U{205f}'
    || c == '\U{3000}'
  }

  predicate AllSpace(s: string) {
    forall k :: 0 <= k < |s| ==> IsSpace(s[k])
  }

  /** Number of white-space characters at the front of `s`. */
  function LeadingSpaces(s: string): (n: nat)
    ensures n <= |s|
    ensures AllSpace(s[..n])
    ensures n == |s| || !IsSpace(s[n])
  {
    if |s| == 0 || !IsSpace(s[0]) then 0
    else
      var n := 1 + LeadingSpaces(s[1..]);
      assert s[..n] == [s[0]] + s[1..][..n - 1];
      n
  }

  /** Number of white-space characters at the end of `s`. */
  function TrailingSpaces(s: string): (n: nat)
    ensures n <= |s|
    ensures AllSpace(s[|s| - n..])
    ensures n == |s| || !IsSpace(s[|s| - n - 1])
  {
    if |s| == 0 || !IsSpace(s[|s| - 1]) then 0
    else
      var t := s[..|s| - 1];
      var n := 1 + TrailingSpaces(t);
      assert s[|s| - n..] == t[|t| - (n - 1)..] + [s[|s| - 1]];
      n
  }

  /** Python's `s.strip()`: `s` without its leading and trailing white space. */
  function Strip(s: string): (r: string)
    ensures |r| <= |s|
    ensures r == [] || (!IsSpace(r[0]) && !IsSpace(r[|r| - 1]))
    ensures StrippedAt(s, LeadingSpaces(s), r)
  {
    var i := LeadingSpaces(s);
    var n := TrailingSpaces(s[i..]);
    StripSlice(s, i, n);
    s[i..|s| - n]
  }

  lemma StripSlice(s: string, i: nat, n: nat)
    requires i == LeadingSpaces(s)
    requires n == TrailingSpaces(s[i..])
    ensures i <= |s| - n
    ensures var r := s[i..|s| - n];
      && (r == [] || (!IsSpace(r[0]) && !IsSpace(r[|r| - 1])))
      && StrippedAt(s, i, r)
  {
    var t := s[i..];
    assert AllSpace(s[..i]);
    assert i == |s| || !IsSpace(s[i]);
    assert n <= |t|;
    assert AllSpace(t[|t| - n..]);
    assert n == |t| || !IsSpace(t[|t| - n - 1]);
    SliceFacts(s, i, t, n);
  }

  /** The slice of `s` between `i` leading and `n` trailing white-space
      characters (the latter counted in the suffix `t` from `i`). */
  lemma SliceFacts(s: string, i: nat, t: string, n: nat)
    requires i <= |s| && t == s[i..] && n <= |t|
    requires AllSpace(s[..i])
    requires i == |s| || !IsSpace(s[i])
    requires AllSpace(t[|t| - n..])
    requires n == |t| || !IsSpace(t[|t| - n - 1])
    ensures i <= |s| - n
    ensures var r := s[i..|s| - n];
      && (r == [] || (!IsSpace(r[0]) && !IsSpace(r[|r| - 1])))
      && StrippedAt(s, i, r)
  {
    var j := |s| - n;
    var r := s[i..j];
    assert t[|t| - n..] == s[j..];
    assert i + |r| == j;
    if r != [] {
      assert r[0] == s[i];
      assert r[|r| - 1] == t[|t| - n - 1];
    }
  }

  /** `r` sits in `s` at offset `i`, with only white space around it. */
  predicate StrippedAt(s: string, i: nat, r: string) {
    && i + |r| <= |s|
    && s[i..i + |r|] == r
    && AllSpace(s[..i])
    && AllSpace(s[i + |r|..])
  }

  /** Total length of the strings in `lines`. */
  function TotalLength(lines: seq<string>): nat {
    if |lines| == 0 then 0 else |lines[0]| + TotalLength(lines[1..])
  }

  /** Python's `"\n".join(lines)`: the lines with one newline between each
      neighbouring pair, so one character more than the lines per gap. */
  function Join(lines: seq<string>): (r: string)
    ensures |lines| == 0 ==> r == ""
    ensures |lines| > 0 ==> |r| == TotalLength(lines) + |lines| - 1
  {
    if |lines| == 0 then ""
    else if |lines| == 1 then lines[0]
    else lines[0] + "\n" + Join(lines[1..])
  }

  /** Python's `s.split("\n")`: the pieces between newlines, always at least one. */
  function Split(s: string): (r: seq<string>)
    ensures |r| >= 1
    ensures forall k :: 0 <= k < |r| ==> '\n' !in r[k]
  {
    if |s| == 0 then [""]
    else if s[0] == '\n' then [""] + Split(s[1..])
    else
      var t := Split(s[1..]);
      [[s[0]] + t[0]] + t[1..]
  }

  /** Python's `c.lower()` for an ASCII letter; other characters are kept. */
  function LowerChar(c: char): (l: char)
    ensures 'A' <= c <= 'Z' ==> 'a' <= l <= 'z' && l as int - c as int == 32
    ensures !('A' <= c <= 'Z') ==> l == c
  {
    if 'A' <= c <= 'Z' then (c as int + 32) as char else c
  }

  /** Python's `s.lower()` restricted to ASCII letters. */
  function AsciiLower(s: string): (r: string)
    ensures |r| == |s|
  {
    seq(|s|, k requires 0 <= k < |s| => LowerChar(s[k]))
  }

  /** Python's `s.endswith(suffix)`. */
  predicate EndsWith(s: string, suffix: string) {
    |suffix| <= |s| && s[|s| - |suffix|..] == suffix
  }

  function DigitChar(d: nat): (c: char)
    requires d < 10
    ensures '0' <= c <= '9'
  {
    ('0' as int + d) as char
  }

  /** Decimal digits of `n` without leading zeros, as `str(n)` prints them. */
  function NatToString(n: nat): (r: string)
    ensures |r| >= 1
    ensures forall k :: 0 <= k < |r| ==> '0' <= r[k] <= '9'
    ensures r[0] == '0' ==> n == 0
  {
    if n < 10 then [DigitChar(n)]
    else NatToString(n / 10) + [DigitChar(n % 10)]
  }

  /** `str(i)` for a Python `int`: a minus sign when negative, then the decimal
      digits of the magnitude, whose value is that magnitude. */
  function IntToString(i: int): (r: string)
    ensures |r| >= 1
    ensures (r[0] == '-') <==> i < 0
    ensures i < 0 ==> |r| >= 2 && forall k :: 1 <= k < |r| ==> '0' <= r[k] <= '9'
    ensures i >= 0 ==> forall k :: 0 <= k < |r| ==> '0' <= r[k] <= '9'
    ensures i < 0 ==> DecimalValue(r[1..]) == -i
    ensures i >= 0 ==> DecimalValue(r) == i
    ensures i >= 0 && r[0] == '0' ==> i == 0
    ensures i < 0 ==> r[1] != '0'
  {
    if i < 0 then
      var digits := NatToString(-i);
      NatToStringRoundTrip(-i);
      assert ("-" + digits)[1..] == digits;
      assert ("-" + digits)[1] == digits[0];
      "-" + digits
    else
      NatToStringRoundTrip(i);
      NatToString(i)
  }

  /** Different integers print differently. */
  lemma {:induction false} IntToStringInjective(i: int, j: int)
    requires IntToString(i) == IntToString(j)
    ensures i == j
  {
  }

  /** In `x + ":" + y` with no ':' in `x`, the first ':' sits right after `x`. */
  lemma {:induction false} FirstColon(x: string, y: string)
    requires ':' !in x
    ensures (x + (":" + y))[|x|] == ':'
    ensures forall k :: 0 <= k < |x| ==> (x + (":" + y))[k] != ':'
  {
    forall k | 0 <= k < |x| ensures (x + (":" + y))[k] != ':' {
      assert (x + (":" + y))[k] == x[k];
    }
  }

  /** A printed integer is a sign and digits, so it holds no ':'. */
  lemma {:induction false} IntToStringNoColon(i: int)
    ensures ':' !in IntToString(i)
  {
    var s := IntToString(i);
    assert forall k :: 0 <= k < |s| ==> s[k] == '-' || '0' <= s[k] <= '9';
  }

  /** Lower-casing a suffix is taking the suffix of the lower-cased string. */
  lemma {:induction false} AsciiLowerSuffix(s: string, k: nat)
    requires k <= |s|
    ensures AsciiLower(s)[k..] == AsciiLower(s[k..])
  {
  }

  /** A string made of two parts around the first ':' splits back into them. */
  lemma {:induction false} SplitAtColon(x: string, y: string, x2: string, y2: string)
    requires ':' !in x && ':' !in x2
    requires x + (":" + y) == x2 + (":" + y2)
    ensures x == x2 && y == y2
  {
    var s := x + (":" + y);
    FirstColon(x, y);
    FirstColon(x2, y2);
    assert |x| == |x2|;
    assert x == s[..|x|] == x2;
    assert y == s[|x| + 1..] == y2;
  }

  /** The value of a string of decimal digits. */
  function DecimalValue(s: string): nat
    requires forall k :: 0 <= k < |s| ==> '0' <= s[k] <= '9'
  {
    if |s| == 0 then 0
    else 10 * DecimalValue(s[..|s| - 1]) + (s[|s| - 1] as int - '0' as int)
  }

  /** Reading back the digits `str(n)` prints gives `n`. */
  lemma {:induction false} NatToStringRoundTrip(n: nat)
    ensures DecimalValue(NatToString(n)) == n
  {
    if n >= 10 {
      var s := NatToString(n);
      assert s[..|s| - 1] == NatToString(n / 10);
      NatToStringRoundTrip(n / 10);
    }
  }

  /** A string with no white space at either end is its own strip. */
  lemma StripUnchanged(s: string)
    requires s == [] || (!IsSpace(s[0]) && !IsSpace(s[|s| - 1]))
    ensures Strip(s) == s
  {
    assert LeadingSpaces(s) == 0;
    assert TrailingSpaces(s) == 0;
    assert s[0..|s|] == s;
  }

  /** Stripping twice is stripping once. */
  lemma StripIdempotent(s: string)
    ensures Strip(Strip(s)) == Strip(s)
  {
    StripUnchanged(Strip(s));
  }

  /** Stripping never introduces a character. */
  lemma StripKeepsCharacters(s: string, c: char)
    requires c in Strip(s)
    ensures c in s
  {
    var r := Strip(s);
    var i := LeadingSpaces(s);
    var k :| 0 <= k < |r| && r[k] == c;
    assert s[i + k] == s[i..i + |r|][k];
  }

  /** A line strips to nothing exactly when it is all white space. */
  lemma StripEmptyIffBlank(s: string)
    ensures Strip(s) == "" <==> AllSpace(s)
  {
    var r := Strip(s);
    var i := LeadingSpaces(s);
    if r == "" {
      StrippedEmptyIsBlank(s, i);
    } else {
      assert s[i..i + |r|][0] == s[i];
    }
  }

  /** Only white space surrounds an empty strip, so the whole string is white space. */
  lemma StrippedEmptyIsBlank(s: string, i: nat)
    requires StrippedAt(s, i, "")
    ensures AllSpace(s)
  {
    forall k | 0 <= k < |s| ensures IsSpace(s[k]) {
      if k < i {
        assert s[..i][k] == s[k];
      } else {
        assert s[i..][k - i] == s[k];
      }
    }
  }

  lemma SplitNoNewline(a: string)
    requires '\n' !in a
    ensures Split(a) == [a]
  {
    if |a| > 0 {
      assert '\n' !in a[1..];
      SplitNoNewline(a[1..]);
      assert [a[0]] + a[1..] == a;
    }
  }

  lemma {:induction false} SplitAfterLine(a: string, b: string)
    requires '\n' !in a
    ensures Split(a + "\n" + b) == [a] + Split(b)
  {
    if |a| == 0 {
      assert a + "\n" + b == "\n" + b;
      assert ("\n" + b)[1..] == b;
    } else {
      var s := a + "\n" + b;
      assert s[0] == a[0];
      assert s[1..] == a[1..] + "\n" + b;
      assert '\n' !in a[1..];
      SplitAfterLine(a[1..], b);
      assert [a[0]] + a[1..] == a;
    }
  }

  /** Splitting the joined lines at newlines gives the lines back, provided no
      line contains a newline itself. */
  lemma {:induction false} SplitJoin(lines: seq<string>)
    requires |lines| >= 1
    requires forall k :: 0 <= k < |lines| ==> '\n' !in lines[k]
    ensures Split(Join(lines)) == lines
  {
    if |lines| == 1 {
      SplitNoNewline(lines[0]);
    } else {
      SplitAfterLine(lines[0], Join(lines[1..]));
      SplitJoin(lines[1..]);
      assert [lines[0]] + lines[1..] == lines;
    }
  }

  /** Joining the pieces of a split restores the string. */
  lemma {:induction false} JoinSplit(s: string)
    ensures Join(Split(s)) == s
  {
    if |s| == 0 {
    } else if s[0] == '\n' {
      JoinSplit(s[1..]);
      var t := Split(s[1..]);
      assert ([""] + t)[1..] == t;
      assert s == "" + "\n" + s[1..];
    } else {
      JoinSplit(s[1..]);
      JoinExtendFirst([s[0]], Split(s[1..]));
      assert s == [s[0]] + s[1..];
    }
  }

  /** Prefixing the first line prefixes the join. */
  lemma {:induction false} JoinExtendFirst(p: string, t: seq<string>)
    requires |t| >= 1
    ensures Join([p + t[0]] + t[1..]) == p + Join(t)
  {
    var u := [p + t[0]] + t[1..];
    assert |u| == |t| && u[0] == p + t[0];
    if |t| == 1 {
      calc {
        Join(u);
        u[0];
        p + Join(t);
      }
    } else {
      var rest := Join(t[1..]);
      assert u[1..] == t[1..];
      calc {
        Join(u);
        u[0] + "\n" + Join(u[1..]);
        (p + t[0]) + "\n" + rest;
        p + (t[0] + "\n" + rest);
        p + Join(t);
      }
    }
  }
}

=== FILE: upload.dfy ===
/** The `/api/upload` endpoint: validate the file name and size, convert the
    PDF, and turn every failure into an HTTP error; plus the application-wide
    handler for exceptions no route handles. Reading the upload, saving it,
    loading the models, the conversion, the clock and the `finally` clause's
    existence test are opaque: their outcomes are inputs. */
module Upload {
  import opened Wrappers
  import opened Text

  /** 50 MiB. */
  const MaxFileSize: nat := 50 * 1024 * 1024

  const UnsupportedTypeDetail := "Only PDF files are supported"
  const TooLargeDetail := "File too large (max 50MB)"
  const ProcessingFailedPrefix := "Processing failed: "

  /** The message of the `AttributeError` raised by `.lower()` on a missing file name. */
  const MissingNameMessage := "'NoneType' object has no attribute 'lower'"

  /** The response model of the endpoint. */
  datatype OcrResponse = OcrResponse(
    success: bool,
    filename: string,
    markdownContent: string,
    fileSize: nat,
    processingTime: real,
    error: string)

  /** An exception raised inside the endpoint. */
  datatype Exception =
    | HttpException(statusCode: nat, detail: string)
    | OtherException(message: string)

  /** What the endpoint hands to the web framework. */
  datatype Reply =
    | OkReply(response: OcrResponse)
    | DetailReply(statusCode: nat, detail: string)
    | ErrorReply(statusCode: nat, success: bool, error: string)

  /** `OCRResponse(success=...)` with every other field at its declared default. */
  function DefaultResponse(success: bool): (r: OcrResponse)
    ensures r.success == success
    ensures r.filename == "" && r.markdownContent == "" && r.error == ""
    ensures r.fileSize == 0 && r.processingTime == 0.0
  {
    OcrResponse(success, "", "", 0, 0.0, "")
  }

  /** The type check: the lower-cased name ends in ".pdf". */
  function IsPdfName(filename: string): (ok: bool)
    ensures ok <==> |filename| >= 4 && AsciiLower(filename[|filename| - 4..]) == ".pdf"
  {
    if |filename| >= 4 then AsciiLowerSuffix(filename, |filename| - 4); EndsWith(AsciiLower(filename), ".pdf")
    else EndsWith(AsciiLower(filename), ".pdf")
  }

  /** The `try` block gets past both checks and assigns the temporary file's
      path, so the `finally` clause tests whether that file exists. */
  predicate SavesUpload(filename: Option<string>, received: Result<nat, string>) {
    filename.Some? && IsPdfName(filename.value) && received.Success? && received.value <= MaxFileSize
  }

  /** The body of the endpoint's `try` block. `received` is the byte length
      read or the message reading raised; `converted` is the Markdown text or
      the message that saving, model loading or conversion raised; `elapsed`
      is the clock difference since the request started. */
  function ProcessUpload(filename: Option<string>, received: Result<nat, string>,
                         converted: Result<string, string>, elapsed: real): (r: Result<OcrResponse, Exception>)
    ensures r.Success? <==>
      filename.Some? && IsPdfName(filename.value) && received.Success?
      && received.value <= MaxFileSize && converted.Success?
    ensures r.Success? ==>
      r.value == DefaultResponse(true).(filename := filename.value, markdownContent := converted.value,
                                        fileSize := received.value, processingTime := elapsed)
    ensures filename.Some? && !IsPdfName(filename.value) ==>
      r == Failure(HttpException(400, UnsupportedTypeDetail))
    ensures filename.Some? && IsPdfName(filename.value) && received.Success? && received.value > MaxFileSize ==>
      r == Failure(HttpException(400, TooLargeDetail))
    ensures r.Failure? && r.error.HttpException? ==> r.error.statusCode == 400
    ensures filename.None? ==> r == Failure(OtherException(MissingNameMessage))
    ensures filename.Some? && IsPdfName(filename.value) && received.Failure? ==>
      r == Failure(OtherException(received.error))
    ensures SavesUpload(filename, received) && converted.Failure? ==>
      r == Failure(OtherException(converted.error))
  {
    match filename
    case None => Failure(OtherException(MissingNameMessage))
    case Some(name) =>
      if !IsPdfName(name) then Failure(HttpException(400, UnsupportedTypeDetail))
      else
        match received
        case Failure(e) => Failure(OtherException(e))
        case Success(size) =>
          if size > MaxFileSize then Failure(HttpException(400, TooLargeDetail))
          else
            match converted
            case Failure(e) => Failure(OtherException(e))
            case Success(markdown) =>
              Success(OcrResponse(true, name, markdown, size, elapsed, ""))
  }

  /** The `except` clauses: an HTTP exception is re-raised as it is, any other
      becomes a 500 whose detail is the prefixed message. */
  function MapException(e: Exception): (m: Exception)
    ensures m.HttpException?
    ensures e.HttpException? ==> m == e
    ensures e.OtherException? ==>
      m.statusCode == 500 && |ProcessingFailedPrefix| <= |m.detail|
      && m.detail[..|ProcessingFailedPrefix|] == ProcessingFailedPrefix
      && m.detail[|ProcessingFailedPrefix|..] == e.message
  {
    match e
    case HttpException(_, _) => e
    case OtherException(message) => HttpException(500, ProcessingFailedPrefix + message)
  }

  /** Python's `upload_and_process_pdf`. `cleanup` is the message the
      `finally` clause's `file_path.exists()` raises, `None` when it returns;
      the removal itself swallows its own errors. An exception raised there
      replaces whatever the `try` and `except` clauses produced. */
  function UploadAndProcess(filename: Option<string>, received: Result<nat, string>,
                            converted: Result<string, string>, elapsed: real,
                            cleanup: Option<string>): (r: Result<OcrResponse, Exception>)
    ensures r.Success? <==> ProcessUpload(filename, received, converted, elapsed).Success? && cleanup.None?
    ensures r.Success? ==> r == ProcessUpload(filename, received, converted, elapsed)
    ensures SavesUpload(filename, received) && cleanup.Some? ==> r == Failure(OtherException(cleanup.value))
    ensures !(SavesUpload(filename, received) && cleanup.Some?) && r.Failure? ==>
      r.error == MapException(ProcessUpload(filename, received, converted, elapsed).error)
    ensures r.Failure? && r.error.HttpException? ==> r.error.statusCode == 400 || r.error.statusCode == 500
    ensures r.Failure? && r.error.HttpException? ==>
      (r.error.statusCode == 400 <==> ProcessUpload(filename, received, converted, elapsed).error.HttpException?)
  {
    var outcome := match ProcessUpload(filename, received, converted, elapsed)
      case Success(response) => Success(response)
      case Failure(e) => Failure(MapException(e));
    if SavesUpload(filename, received) && cleanup.Some? then Failure(OtherException(cleanup.value))
    else outcome
  }

  /** Python's `global_exception_handler`: status 500 with the exception's
      message and `success` false. */
  function GlobalExceptionHandler(message: string): (r: Reply)
    ensures r.ErrorReply? && r.statusCode == 500 && !r.success && r.error == message
  {
    ErrorReply(500, false, message)
  }

  /** How the framework answers an endpoint's outcome: a response as it is, an
      HTTP exception as its status and detail, anything else through the
      global handler. */
  function Respond(outcome: Result<OcrResponse, Exception>): (r: Reply)
    ensures r.OkReply? <==> outcome.Success?
    ensures r.ErrorReply? <==> outcome.Failure? && outcome.error.OtherException?
    ensures outcome.Success? ==> r == OkReply(outcome.value)
    ensures outcome.Failure? && outcome.error.HttpException? ==>
      r == DetailReply(outcome.error.statusCode, outcome.error.detail)
    ensures outcome.Failure? && outcome.error.OtherException? ==>
      r == GlobalExceptionHandler(outcome.error.message)
  {
    match outcome
    case Success(response) => OkReply(response)
    case Failure(HttpException(status, detail)) => DetailReply(status, detail)
    case Failure(OtherException(message)) => GlobalExceptionHandler(message)
  }

  /** Mapping an exception twice is mapping it once. */
  lemma MapExceptionIdempotent(e: Exception)
    ensures MapException(MapException(e)) == MapException(e)
  {
  }

  /** The upload endpoint reaches the global handler exactly when the
      `finally` clause's existence test raises: every failure of the `try`
      block leaves it as an HTTP exception. */
  lemma GlobalHandlerOnlyOnCleanupFailure(filename: Option<string>, received: Result<nat, string>,
                                          converted: Result<string, string>, elapsed: real,
                                          cleanup: Option<string>)
    ensures Respond(UploadAndProcess(filename, received, converted, elapsed, cleanup)).ErrorReply?
            <==> SavesUpload(filename, received) && cleanup.Some?
    ensures SavesUpload(filename, received) && cleanup.Some? ==>
      Respond(UploadAndProcess(filename, received, converted, elapsed, cleanup))
      == ErrorReply(500, false, cleanup.value)
  {
  }

  /** A request without a file name fails on `.lower()` before any file is
      saved, and is answered as a processing failure. */
  lemma MissingNameReply(received: Result<nat, string>, converted: Result<string, string>,
                         elapsed: real, cleanup: Option<string>)
    ensures Respond(UploadAndProcess(None, received, converted, elapsed, cleanup))
            == DetailReply(500, ProcessingFailedPrefix + MissingNameMessage)
  {
  }

  /** A read failure is answered as a processing failure carrying its message. */
  lemma ReadFailureReply(name: string, message: string, converted: Result<string, string>,
                         elapsed: real, cleanup: Option<string>)
    requires IsPdfName(name)
    ensures Respond(UploadAndProcess(Some(name), Failure(message), converted, elapsed, cleanup))
            == DetailReply(500, ProcessingFailedPrefix + message)
  {
  }

  /** A failure while saving, loading the models or converting is answered as
      a processing failure carrying its message, unless the cleanup raises. */
  lemma ConversionFailureReply(name: string, size: nat, message: string, elapsed: real)
    requires IsPdfName(name) && size <= MaxFileSize
    ensures Respond(UploadAndProcess(Some(name), Success(size), Failure(message), elapsed, None))
            == DetailReply(500, ProcessingFailedPrefix + message)
  {
  }

  /** Unless the cleanup raises, a converted upload is answered with the
      response model: the name, the Markdown text, the byte count and the
      elapsed time, and no error. */
  lemma ConvertedReply(name: string, size: nat, markdown: string, elapsed: real)
    requires IsPdfName(name) && size <= MaxFileSize
    ensures Respond(UploadAndProcess(Some(name), Success(size), Success(markdown), elapsed, None))
            == OkReply(OcrResponse(true, name, markdown, size, elapsed, ""))
  {
  }

  /** The type check comes first: a non-PDF name is refused as such whatever
      its size and whatever reading it would have done. */
  lemma TypeCheckPrecedesSizeCheck(name: string, received: Result<nat, string>,
                                   converted: Result<string, string>, elapsed: real,
                                   cleanup: Option<string>)
    requires !IsPdfName(name)
    ensures UploadAndProcess(Some(name), received, converted, elapsed, cleanup)
            == Failure(HttpException(400, UnsupportedTypeDetail))
  {
  }

  /** Lower-casing works character by character, so it distributes over concatenation. */
  lemma AsciiLowerAppend(a: string, b: string)
    ensures AsciiLower(a + b) == AsciiLower(a) + AsciiLower(b)
  {
    var l, m := AsciiLower(a + b), AsciiLower(a) + AsciiLower(b);
    forall k | 0 <= k < |l| ensures l[k] == m[k] {
      if k < |a| {
        assert (a + b)[k] == a[k];
      } else {
        assert (a + b)[k] == b[k - |a|];
      }
    }
  }

  lemma EndsWithAppended(s: string, suffix: string)
    ensures EndsWith(s + suffix, suffix)
  {
    assert (s + suffix)[|s + suffix| - |suffix|..] == suffix;
  }

  /** The extension test ignores case: "X.PDF" passes like "X.pdf". */
  lemma ExtensionCaseInsensitive(stem: string, ext: string)
    requires ext in {".pdf", ".PDF", ".Pdf", ".pDF"}
    ensures IsPdfName(stem + ext)
  {
    AsciiLowerAppend(stem, ext);
    assert AsciiLower(ext) == [LowerChar(ext[0]), LowerChar(ext[1]), LowerChar(ext[2]), LowerChar(ext[3])];
    assert AsciiLower(ext) == ".pdf";
    EndsWithAppended(AsciiLower(stem), ".pdf");
  }

  /** A name whose last character is not an "f" of either case is refused. */
  lemma WrongLastCharacterRefused(name: string)
    requires |name| > 0 && name[|name| - 1] != 'f' && name[|name| - 1] != 'F'
    ensures !IsPdfName(name)
  {
    var l := AsciiLower(name);
    assert l[|l| - 1] == LowerChar(name[|name| - 1]);
    if |l| >= 4 {
      assert l[|l| - 4..][3] == l[|l| - 1];
    }
  }

  /** The size bound is inclusive: exactly 50 MiB passes, one byte more does not. */
  lemma SizeBoundInclusive(name: string, markdown: string, elapsed: real, cleanup: Option<string>)
    requires IsPdfName(name)
    ensures UploadAndProcess(Some(name), Success(MaxFileSize), Success(markdown), elapsed, None).Success?
    ensures UploadAndProcess(Some(name), Success(MaxFileSize + 1), Success(markdown), elapsed, cleanup)
            == Failure(HttpException(400, TooLargeDetail))
  {
  }
}

=== FILE: wrappers.dfy ===
/** Failure-carrying datatypes shared by the modules of the backend model. */
module Wrappers {

  /** A value that may be absent: Python's `None` or a present value. */
  datatype Option<+T> = None | Some(value: T)

  /** The outcome of a step that may raise: the value it returns, or the
      message of the exception it raises. */
  datatype Result<+T, +E> = Success(value: T) | Failure(error: E) {
    predicate IsFailure() {
      Failure?
    }

    function PropagateFailure<U>(): Result<U, E>
      requires Failure?
    {
      Failure(error)
    }

    function Extract(): T
      requires Success?
    {
      value
    }
  }

  /** The message of Python's `ZeroDivisionError`, raised by several steps. */
  const DivisionByZeroMessage := "division by zero"
}
